=== FILE: README.md ===
# sofia-sip-sys core, modelled in Dafny

This project models the safe Rust layer that `sofia-sip-sys` puts over the
Sofia-SIP C library:

- the parameter tags and the sentinel-terminated tag lists handed to the engine;
- the event enumeration and its decoding from the engine's integer codes;
- the reactor ("root") and the process-wide library state;
- the user agent ("Nua") with its create / shutdown-and-wait / destroy lifecycle and its event callback trampoline;
- dialog handles that send MESSAGE and INVITE;
- the wrapper's error type and its errno helper.

The model is purely functional. Every operation takes the current state and
returns an `Effect(after, calls)`: `after` is the new state and `calls` is the
ordered trace of native Sofia-SIP calls the operation makes. The C library
itself is not modelled. Its answers are parameters:

- `created` is the pointer a `*_create` returned;
- a script of step outcomes drives each event loop.

A loop that can run forever in the source consumes a finite script. Its
`OutOfScript` ending means "still running when the answers ran out", so the
contracts of those loops are partial-correctness statements.

Modules, one per source file:

| module | file | source |
|---|---|---|
| `Wrappers` | wrappers.dfy | `Option` / `Result` |
| `Errors` | errors.dfy | src/error.rs |
| `Tags` | tag.dfy | src/tag/tag.rs |
| `TagBuilder` | builder.dfy | src/tag/builder.rs |
| `Events` | events.dfy | src/nua/event.rs |
| `Native` | native.dfy | the native entry points the core calls (pointers, call trace) |
| `Su` | su.dfy | src/su.rs |
| `Nua` | nua.dfy | src/nua/nua.rs, without the trampoline |
| `Handles` | handle.dfy | src/nua/handle.rs |
| `Glue` | glue.dfy | `nua_callback_glue` in src/nua/nua.rs |

## Model

| member | source | states |
|---|---|---|
| Errors.GetAndReset | src/error.rs:20-24 | reading errno returns the value that was there and leaves `ERROR_NONE` behind |
| Errors.GetAndResetTwice | src/error.rs:33-35 | a second read right after a first one always sees `ERROR_NONE` |
| Errors.ErrorIsClosed | src/error.rs:2-9 | the wrapper's error type has exactly six variants |
| Tags.CStringNew | src/tag/tag.rs:49 | C-string conversion succeeds exactly when the bytes hold no NUL, and keeps them unchanged; otherwise it reports the first NUL's position |
| Tags.FromNulError | src/error.rs:27-31 | every NUL error becomes `ConvertToCStringError` |
| Tags.ToCString | src/tag/tag.rs:49 | the conversion behind `?` succeeds exactly when there is no NUL, and fails only with `ConvertToCStringError` |
| Tags.Symbol | src/tag/tag.rs:19-28 | the symbol is null exactly for `Null` and `End`, and is never `tag_next` |
| Tags.Value | src/tag/tag.rs:29-38 | the value is 0 exactly for `Null` and `End`; otherwise it points at the tag's own string |
| Tags.Item | src/tag/tag.rs:40-45 | an item pairs the tag's symbol with its value; it is the (null, 0) sentinel exactly for `Null` and `End` |
| Tags.SymbolsDistinct | src/tag/tag.rs:19-28 | two string tags share a symbol exactly when they are the same variant, so the engine can tell all five apart |
| Tags.FromItem | src/tag/tag.rs:19-38 | reading an item back yields a string tag whose own item is that same item |
| Tags.ItemRoundTrip | src/tag/tag.rs:40-45 | for every string tag, the engine reads the tag back from its item unchanged |
| Tags.NuUrl | src/tag/tag.rs:48-50 | succeeds exactly for NUL-free input and gives a `Url` carrying exactly those bytes; otherwise fails with `ConvertToCStringError` |
| Tags.SipSubject | src/tag/tag.rs:53-55 | the same, for `SubjectStr` |
| Tags.SipContentType | src/tag/tag.rs:58-60 | the same, for `ContentTypeStr` |
| Tags.SipPayloadString | src/tag/tag.rs:63-65 | the same, for `PayloadStr` |
| Tags.SipTo | src/tag/tag.rs:68-70 | the same, for `ToStr` |
| Tags.EmbeddedNulIsRejected | src/tag/tag.rs:48-70 | a string with an embedded NUL is rejected by every constructor rather than cut short |
| TagBuilder.Default | src/tag/builder.rs:22-26 | a new builder has collected nothing |
| TagBuilder.AddTag | src/tag/builder.rs:27-30 | `tag` appends one tag after the existing ones and keeps those untouched |
| TagBuilder.CollectAfterTag | src/tag/builder.rs:27-34 | collecting after `tag(t)` gives what was collected before, followed by `t` |
| TagBuilder.BuildCollects | src/tag/builder.rs:22-34 | chaining `tag` over a list and then collecting returns exactly that list, in order |
| TagBuilder.ConvertTags | src/tag/builder.rs:9-19 | the wire array has one item per tag, in order, each the tag's own item, followed by exactly one sentinel |
| TagBuilder.SentinelOnlyAtEnd | src/tag/builder.rs:9-19 | when every tag carries a string, the sentinel appears only in the last slot |
| TagBuilder.NextArgs | src/nua/nua.rs:127-138 | no list becomes `TAG_NULL`; a list becomes `TAG_NEXT` pointing at it |
| TagBuilder.WireRoundTrip | src/tag/builder.rs:9-19 | the engine, walking the array up to its sentinel, recovers exactly the caller's string tags, in order |
| TagBuilder.WireStopsAtFirstSentinel | src/tag/builder.rs:9-19 | a `Null` or `End` inside the list cuts it short: the engine sees only the tags before it |
| Events.Code | src/nua/event.rs:36-94 | every event has an in-range code, and decoding that code through the declaration order gives the event back |
| Events.CodeInjective | src/nua/event.rs:36-94 | different events have different codes |
| Events.EventsClosed | src/nua/event.rs:36-94 | there are exactly 55 events, all distinct, and every event is among them |
| Events.ListedAtCode | src/nua/event.rs:36-94 | each event sits in the declaration listing at the position given by its code |
| Events.CodeOfListed | src/nua/event.rs:36-94 | the event in each position of the declaration has that position as its code |
| Events.DecodeIn | src/nua/event.rs:27-32 | the scan finds a candidate exactly when one has the given code, and what it finds has that code |
| Events.TryFrom | src/nua/event.rs:24-32 | decoding succeeds only with an event whose code is the input; otherwise it fails with `InitError` |
| Events.TryFromRoundTrip | src/nua/event.rs:27-32 | decoding an event's own code gives that event |
| Events.TryFromExactlyCodes | src/nua/event.rs:24-32 | decoding succeeds exactly for the 55 codes 0..54 and fails with `InitError` for every other integer |
| Events.ShutdownIsReply | src/nua/event.rs:62-91 | the shutdown reply has code 25 and lies in the block of reply events; an incoming MESSAGE does not, its reply does |
| Su.Timeout | src/su.rs:51-57 | the forwarded timeout is always in [0, 1000); a requested timeout in that range is kept, anything else becomes 100 |
| Su.TimeoutIdempotent | src/su.rs:51-57 | clamping an already clamped timeout changes nothing |
| Su.Step | src/su.rs:51-64 | one step makes exactly one native step call, with the clamped timeout, and returns the engine's answer |
| Su.Sleep | src/su.rs:66-75 | sleep forwards the caller's timeout unclamped and returns the engine's answer |
| Su.Run | src/su.rs:77-86 | run makes one native run call and changes nothing in the root |
| Su.Break | src/su.rs:88-101 | break makes one native break call and changes nothing in the root |
| Su.Create | src/su.rs:22-37 | creation succeeds exactly when the engine returns a root; on success threading is switched off for that root; on failure the error is `InitError` |
| Su.Destroy | src/su.rs:39-49 | destroy leaves a null pointer, and releases the native root only when there was one |
| Su.DestroyTwice | src/su.rs:144-148 | destroying twice releases the native root exactly once |
| Su.Stop | src/su.rs:139-141 | stop clears the rushing flag and keeps the root |
| Su.RushLoop | src/su.rs:123-137 | the loop steps with the default timeout; it leaves at the first step that fails with errno set or that saw `stop`, and runs on through every step before that; it leaves errno as the last step's round left it (read and so reset after a negative step) |
| Su.RushAsWritten | src/su.rs:117-138 | a root already rushing returns at once with no call; otherwise it runs exactly the loop (same steps, same ending) on the same root, and the flag stays set unless `stop` was called during the loop |
| Su.RushAsWrittenStaysLocked | src/su.rs:117-138 | after one failing step the root stays flagged, and every later `rush` on it makes no call at all |
| Su.Rush | src/su.rs:117-141 | the same loop with the flag cleared on every exit; only a `rush` entered while another runs is turned away |
| Su.RushCanRunAgain | src/su.rs:117-141 | after any `rush` that returned, the next `rush` steps the engine again |
| Su.RushUntilNextTimer | src/su.rs:107-115 | steps with a 1 ms timeout until the first answer of zero or less; every earlier answer was positive |
| Su.Init | src/su.rs:159-177 | afterwards the library is initialised; the native init runs only the first time; the default root is untouched |
| Su.InitIdempotent | src/su.rs:159-183 | a second `init` changes nothing and makes no call, so the native init runs at most once |
| Su.New | src/su.rs:18-21 | a new root initialises the library first, then creates the root |
| Su.DeinitDefaultRoot | src/su.rs:252-259 | the default root, if any, is released and both slot and flag are cleared |
| Su.Deinit | src/su.rs:185-195 | the native deinit runs only when the library is initialised, followed by the default root's release; afterwards both flags are false |
| Su.DeinitReleasesRootAfterLibrary | src/su.rs:185-195 | with a default root, `deinit` calls `su_deinit` first and destroys the root after it |
| Su.DeinitRootFirst | src/su.rs:185-195 | the corrected `deinit`: same end state, and `su_deinit` is the last call, made once, after the default root is destroyed |
| Su.DeinitOrdersAgree | src/su.rs:185-195 | the corrected and the written `deinit` reach the same state with the same calls, in a different order |
| Su.DeinitIdempotent | src/su.rs:185-195 | a second `deinit` is a no-op |
| Su.InitDefaultRoot | src/su.rs:206-233 | succeeds exactly when a default root already exists or the engine creates one; that root is then stored; on failure no default root is recorded |
| Su.DefaultRootCreatedOnce | src/su.rs:206-240 | one call creates at most one root, and once creation has succeeded later calls make no native call |
| Su.GetDefaultRoot | src/su.rs:242-250 | the process afterwards is exactly what `init_default_root` leaves, so the root returned is the one already in the default slot or the one just created there, and it is live |
| Su.MainLoopRun | src/su.rs:264-269 | fails with `InitError` only if the default root cannot be made, leaving the process as `get_default_root` left it; otherwise it rushes that root as the program does: a loop ended by `stop` leaves it not rushing, and a loop ended by a failing step without `stop` leaves it rushing; the default root afterwards is exactly the root `rush` leaves, and errno is what the loop leaves (unchanged when already rushing) |
| Su.MainLoopRunStaysLocked | src/su.rs:264-269 | after one main loop ended by a failing step, every later `main_loop_run` returns at once, without a native call |
| Su.StartIsValid | src/su.rs:6-9 | the process starts with both flags false and no default root, which is a consistent state |
| Su.MainLoopQuit | src/su.rs:271-276 | the library is initialised afterwards; an existing default root is kept with only its flag cleared; without one, a root is created and stored not rushing, or there is none when creation fails |
| Su.QuitReleasesLock | src/su.rs:264-276 | after `main_loop_quit` the next `main_loop_run` does not return `AlreadyRushing`, and it steps when the engine answers |
| Nua.New | src/nua/nua.rs:37-44 | a new agent has no root, no native agent, no closure and no completed shutdown |
| Nua.Callback | src/nua/nua.rs:171-176 | installs a closure and changes nothing else |
| Nua.CreateNative | src/nua/nua.rs:111-147 | a null root, missing closure or null context fails with `CreateNuaError` and no call; otherwise one `nua_create` with `TAG_NULL` or `TAG_NEXT`, succeeding exactly when the engine returns an agent |
| Nua.CreateWithRoot | src/nua/nua.rs:71-91 | succeeds exactly when the root is live and the engine returns an agent; the agent's own address is the context and the tags arrive converted |
| Nua.Create | src/nua/nua.rs:66-69 | a failure to make the default root fails with `InitError` and leaves the process as `get_default_root` left it; otherwise it is `create_with_root` on the default root: it succeeds exactly when the engine returns an agent, fails with `CreateNuaError` otherwise, and the agent is bound to the default root |
| Nua.CreateCarriesTags | src/nua/nua.rs:71-91 | the engine recovers exactly the caller's string tags, in order, from the `nua_create` call |
| Nua.DeinitLeavesAgentOnReleasedRoot | src/su.rs:185-195 | after `deinit` releases the default root, an agent made by `Nua::create` still names that root, and destroying the agent steps it |
| Nua.OnEvent | src/nua/nua.rs:149-169 | the shutdown flag becomes set exactly on a shutdown reply with status at least 200; nothing else changes; the closure, if any, gets the event, status, phrase and tags unchanged, with no handle |
| Nua.ShutdownFlagMonotone | src/nua/nua.rs:160-163 | once shutdown has completed, no later event changes the agent |
| Nua.DeliverAll | src/nua/nua.rs:149-169 | a run of events sets the flag exactly when one of them completes the shutdown, and the closure receives every event in order |
| Nua.DeliverAllIsDeliveries | src/nua/nua.rs:164-168 | the closure receives exactly one delivery per event, with no handle and no tags, and nothing when there is no closure |
| Nua.Pump | src/nua/nua.rs:184-188 | the wait steps the agent's own root with 1 ms until the flag is set or a step goes negative, and never steps once the flag is set |
| Nua.PumpOutOfScriptSawNoFailure | src/nua/nua.rs:184-188 | a wait reported as unfinished met no negative step in the whole script |
| Nua.PumpDelivers | src/nua/nua.rs:184-188 | during the wait the closure receives every event of every step taken, in order |
| Nua.Shutdown | src/nua/nua.rs:191-201 | asks the engine to shut down once, and not at all once shutdown has completed |
| Nua.ShutdownAndWait | src/nua/nua.rs:178-189 | returns at once when already completed; otherwise sends one shutdown and then steps; a return means the flag is set or a step went negative; otherwise agent, step count and ending are those of the pump loop; the closure receives the events of the steps taken |
| Nua.ShutdownAndWaitStopsEarly | src/nua/nua.rs:184-188 | no step is taken after the shutdown reply has arrived, and every step but the last returned a non-negative value |
| Nua.DestroyNative | src/nua/nua.rs:212-221 | releases the native agent only when there is one, and leaves a null pointer |
| Nua.Destroy | src/nua/nua.rs:203-210 | a live agent is shut down and waited for, and only then released: the trace is the wait's trace followed by one `nua_destroy`, and the agent afterwards is the waited agent with a null pointer |
| Nua.DestroyOrdersShutdownFirst | src/nua/nua.rs:203-221 | a finished destroy contains exactly one `nua_destroy`, and its first call is the single shutdown request |
| Nua.DestroyTwice | src/nua/nua.rs:240-244 | a second destroy after a finished one makes no call |
| Nua.NewDestroyIsNoop | src/nua/nua.rs:203-206 | dropping an agent that never reached the engine makes no native call |
| Nua.DestroyWithoutShutdownReply | src/nua/nua.rs:184-186 | a step going negative before the shutdown reply ends the wait, and the agent is released with its shutdown not completed |
| Handles.New | src/nua/handle.rs:16-22 | a new handle has no parent, no native handle and no completed terminate |
| Handles.CreateNative | src/nua/handle.rs:36-68 | a null agent or context fails with `CreateNuaHandleError` and no call; otherwise one `nua_handle` with `TAG_NEXT`, succeeding exactly when the engine returns a handle |
| Handles.Create | src/nua/handle.rs:24-34 | succeeds exactly when the agent is live and the engine returns a handle; only then is the parent recorded |
| Handles.CreateCarriesTags | src/nua/handle.rs:24-68 | the engine recovers exactly the caller's string tags, in order, from the `nua_handle` call |
| Handles.Message | src/nua/handle.rs:70-96 | one `nua_message` on the handle, carrying the converted tags behind `TAG_NEXT`; the handle is unchanged |
| Handles.Invite | src/nua/handle.rs:98-124 | one `nua_invite` on the handle, carrying the converted tags behind `TAG_NEXT`; the handle is unchanged |
| Handles.OutboundCarriesTags | src/nua/handle.rs:90-96 | the engine recovers exactly the caller's string tags, in order, from a MESSAGE or an INVITE |
| Handles.Destroy | src/nua/handle.rs:126-139 | releases the native handle only when there is one; afterwards the pointer is null and nothing else changes |
| Handles.DestroyTwice | src/nua/handle.rs:142-146 | destroying twice releases the native handle exactly once |
| Glue.StatusFromC | src/nua/nua.rs:272 | the unsigned status is the C status modulo 2^32 |
| Glue.NegativeStatusIsFinal | src/nua/nua.rs:272 | a negative C status wraps to at least 200, so a shutdown reply carrying one completes the shutdown |
| Glue.Callback | src/nua/nua.rs:247-324 | the event reaches the agent exactly when its code decodes, the context is non-null and matches the engine's agent, and a handle context matches too; an unknown code aborts first; the agent changes only in its shutdown flag; the closure gets the status as `u32` and the phrase unchanged |
| Glue.ShutdownReplyCompletes | src/nua/nua.rs:270-296 | the shutdown reply's code completes the shutdown exactly when its status is final |

## Left out

- src/sys.rs (generated bindings) and build.rs are not part of this model. The native calls are the `Call` constructors in native.dfy, and the engine's answers are parameters.
- Event codes: the bindings that give each event its integer are not modelled. The codes are the declaration order of `nua_event_e`, 0 to 54, which is the order src/nua/event.rs lists the events in.
- `Sip` message views (src/sip.rs) and the `sip` argument of the closure: the view is a stub in the source. `Delivery` does not carry it.
- The phrase is passed through as a string. The lossy UTF-8 decoding of the C string is left out (no encoding is modelled).
- The closure's own behaviour is left out, including a closure that calls back into the agent. The model only records what it receives.
- `catch_unwind` followed by `abort` in `nua_callback_glue` becomes the `Aborted` outcome. Process termination itself is not modelled.
- `Nua::create_full` is left out. It chains `create_with_root` and `callback`, unwrapping the result, so it panics where `Nua.CreateWithRoot` returns an error.
- Earlier revisions of the agent that the current code replaces are not part of this model: src/nua.rs, src/nua/mod.rs, src/nua/builder.rs and src/tag.rs.
- `Nua::run`, `break`, `break_` and `quit` forward to `Su.Run` and `Su.Break` on `root.unwrap()`. They are not modelled separately.
- `Nua::root`'s fallback to the default root is left out. The model's `Valid` ties a live agent to its root instead.
- `is_initialized` and `is_default_root_initialized` are plain reads of the `Process` fields.
- Atomic flags are plain booleans. Threads and memory ordering are not modelled.
- The `atexit` hook `_at_exit_su_deinit` is not modelled; the source never registers it.
- The `atexit(_at_exit_destroy_root)` registration that `init_default_root` makes after storing a new default root (src/su.rs:227) is not in its trace. Process exit is not modelled.
- A tag's value is modelled as the string's bytes (`CStr(payload)`), not as a pointer into the `CString` the tag owns. Buffer lifetime (the array must not outlive the tags) is not modelled.
- The agent and the handle hold copies of the root and the agent, not references. The source borrows them (`Option<&Root>`, `Option<&Nua>`), so a change to the borrowed object after creation is not seen through the copy. This matters for `deinit`, which releases the default root while an agent made by `Nua::create` may still borrow it. The model does not detect this: the agent goes on stepping the released root (`Nua.DeinitLeavesAgentOnReleasedRoot`). The source relies on the caller never calling `deinit` while an agent is alive.
- `Handle.terminateCompleted` is carried but never set, as in the source.
- Address stability of the boxed agent and handle is not modelled. Their addresses are the `self` parameters.
- Su.RushLoop: partial correctness only. When the script runs out the loop is reported as still running (`OutOfScript`), and termination is not claimed.
- Su.RushUntilNextTimer: partial correctness only, for the same reason.
- Nua.Pump: partial correctness only, for the same reason.
- Su.RushLoop: assumes that `rush` sees a `stop` made during a step (`RushStep.stopped`). In the source the only such `stop` comes from `main_loop_quit` (src/su.rs:271-275), called by a callback inside `main_loop_run`'s `rush` (src/su.rs:264-269). It takes a second `&mut` to the default root and clears `rushing` (src/su.rs:139-141), while `rush(&mut self)` is still live and reads `self.rushing` again at src/su.rs:134. Rust's aliasing rules make that write undefined behaviour, so a compiler may treat the flag as unchanged and end the loop only on a failing step. The model gives the behaviour the code intends, in which the write is seen; the `Stopped` ending of `Su.RushLoop`, `Su.RushAsWritten` and `Su.MainLoopRun` rests on it.
- Nua.Pump: assumes that the loop sees every write the callback makes to the shutdown flag. In the source, `shutdown_and_wait(&self)` reads `self.shutdown_completed` through a shared borrow, while the callback writes it through a raw `*mut Nua` inside `step` (src/nua/nua.rs:159-166, marked not thread safe at :165). Rust's aliasing rules make that write undefined behaviour, so a compiler may read the flag only once and loop until a step goes negative. The model gives the behaviour the code intends, in which the write is seen.
- Nua.ShutdownAndWait: partial correctness only, for the same reason.
- Nua.Destroy: when the wait runs out of script, the teardown is reported unfinished, with no `nua_destroy` yet.
- Su.Init: the errno `su_init` leaves is read and discarded. Its return value is not checked, just as the source ignores it.
- Nua.Destroy: the wait ends as soon as a step returns a negative value, so the agent can be released before the shutdown reply arrives (`Nua.DestroyWithoutShutdownReply`).

## Findings

| source | as written | input that shows it | evidently intended | confidence | as-written member | corrected member |
|---|---|---|---|---|---|---|
| src/su.rs:117-138 | `rush` sets `rushing` on entry, and only `stop` clears it. A loop left through a failing step returns with the flag still set. | A live root whose first step returns -1 with errno 5 and no `stop` (`Su.RushAsWrittenStaysLocked`). Every later `rush` on that root returns without stepping; for the default root, every later `main_loop_run` does too (`Su.MainLoopRunStaysLocked`). | Every return from `rush` clears the flag, so the guard only rejects a nested `rush`. | medium, not executed | Su.RushAsWritten | Su.Rush |
| src/su.rs:185-195 | `deinit` calls `su_deinit` and only then destroys the default root. | A process with a default root `r` (`Su.DeinitReleasesRootAfterLibrary`): the calls are `su_deinit`, then `su_root_destroy(r)`. | The root is destroyed while the library is still initialised, then `su_deinit`, as every use of the raw bindings in src/sys.rs does (lines 115/123, 202/210, 314/322, 428/432). | low, not executed | Su.Deinit | Su.DeinitRootFirst |

=== FILE: builder.dfy ===
/** The tag list builder and the flat, sentinel-terminated wire form every
    native call consumes (src/tag/builder.rs). */
module TagBuilder {
  import opened Wrappers
  import opened Tags

  /** An ordered list of tags under construction. */
  datatype Builder = Builder(tags: seq<Tag>)

  /** `collect()`: the tags in the order they were added. */
  function Collect(b: Builder): seq<Tag> {
    b.tags
  }

  /** `Builder::default()`: nothing collected yet. */
  function Default(): (b: Builder)
    ensures Collect(b) == []
  {
    Builder([])
  }

  /** `tag(t)`: append `t` after everything added so far. */
  function AddTag(b: Builder, t: Tag): (r: Builder)
    ensures |Collect(r)| == |Collect(b)| + 1
    ensures Collect(r)[..|Collect(b)|] == Collect(b)
    ensures Collect(r)[|Collect(b)|] == t
  {
    Builder(b.tags + [t])
  }

  /** Collecting after `tag(t)` gives what was collected before, then `t`. */
  lemma CollectAfterTag(b: Builder, t: Tag)
    ensures Collect(AddTag(b, t)) == Collect(b) + [t]
  {
    var r := Collect(AddTag(b, t));
    assert r == r[..|Collect(b)|] + [r[|Collect(b)|]];
  }

  /** The builder chain `Builder::default().tag(ts[0])...tag(ts[n-1])`. */
  function Build(ts: seq<Tag>): Builder
  {
    if ts == [] then Default()
    else AddTag(Build(ts[..|ts| - 1]), ts[|ts| - 1])
  }

  /** Chaining `tag` over a list and collecting gives back exactly that list. */
  lemma {:induction false} BuildCollects(ts: seq<Tag>)
    ensures Collect(Build(ts)) == ts
  {
    if ts != [] {
      var init := ts[..|ts| - 1];
      BuildCollects(init);
      var b := Build(ts);
      assert |Collect(b)| == |ts|;
      assert Collect(b)[..|init|] == init;
      assert Collect(b)[|init|] == ts[|ts| - 1];
      assert Collect(b) == init + [ts[|ts| - 1]];
      assert init + [ts[|ts| - 1]] == ts;
    }
  }

  /** `convert_tags`: each tag's item, in order, then one `Tag::Null` item. */
  function ConvertTags(ts: seq<Tag>): (w: seq<TagItem>)
    ensures |w| == |ts| + 1
    ensures w[|ts|] == SENTINEL
    ensures forall i :: 0 <= i < |ts| ==> w[i] == Item(ts[i])
  {
    if ts == [] then [Item(Null)]
    else [Item(ts[0])] + ConvertTags(ts[1..])
  }

  /** When every tag carries a string, the sentinel occurs only at the end. */
  lemma SentinelOnlyAtEnd(ts: seq<Tag>)
    requires forall i :: 0 <= i < |ts| ==> ts[i].IsString()
    ensures forall i :: 0 <= i < |ConvertTags(ts)| ==>
              (ConvertTags(ts)[i] == SENTINEL <==> i == |ts|)
  {
  }

  /** The `(tag_name, tag_value)` pair passed to a native entry point:
      `TAG_NULL` when there is no list, `TAG_NEXT(list)` otherwise. */
  function NextArgs(items: Option<seq<TagItem>>): (r: TagItem)
    ensures items.None? <==> r == SENTINEL
    ensures items.Some? ==> r.tag == TagNext && r.value == ItemArray(items.value)
  {
    match items
    case None => SENTINEL
    case Some(a) => TagItem(TagNext, ItemArray(a))
  }

  /** How the native engine walks an item array: item by item up to the first
      null symbol; `None` if the array is unterminated or holds an item it
      cannot read back as a string tag. */
  function FromWire(w: seq<TagItem>): Option<seq<Tag>>
  {
    if w == [] then None
    else if w[0].tag == NullSymbol then Some([])
    else
      match FromItem(w[0])
      case None => None
      case Some(t) =>
        match FromWire(w[1..])
        case None => None
        case Some(rest) => Some([t] + rest)
  }

  /** A list of string tags reaches the engine intact and in order. */
  lemma {:induction false} WireRoundTrip(ts: seq<Tag>)
    requires forall i :: 0 <= i < |ts| ==> ts[i].IsString()
    ensures FromWire(ConvertTags(ts)) == Some(ts)
  {
    if ts != [] {
      var w := ConvertTags(ts);
      assert w[1..] == ConvertTags(ts[1..]);
      ItemRoundTrip(ts[0]);
      assert w[0].tag != NullSymbol && FromItem(w[0]) == Some(ts[0]);
      WireRoundTrip(ts[1..]);
      assert FromWire(w) == Some([ts[0]] + ts[1..]);
      assert [ts[0]] + ts[1..] == ts;
    }
  }

  /** A `Null` or `End` inside the list ends it early: the engine sees only
      the tags in front of the first one. */
  lemma {:induction false} WireStopsAtFirstSentinel(ts: seq<Tag>, k: nat)
    requires k < |ts| && !ts[k].IsString()
    requires forall i :: 0 <= i < k ==> ts[i].IsString()
    ensures FromWire(ConvertTags(ts)) == Some(ts[..k])
  {
    if k > 0 {
      var w := ConvertTags(ts);
      assert w[1..] == ConvertTags(ts[1..]);
      ItemRoundTrip(ts[0]);
      assert w[0].tag != NullSymbol && FromItem(w[0]) == Some(ts[0]);
      WireStopsAtFirstSentinel(ts[1..], k - 1);
      assert FromWire(w) == Some([ts[0]] + ts[1..][..k - 1]);
      assert [ts[0]] + ts[1..][..k - 1] == ts[..k];
    }
  }
}

=== FILE: errors.dfy ===
/** The crate's error taxonomy and its errno helper (src/error.rs). */
module Errors {

  /** The closed set of recoverable errors every fallible operation returns. */
  datatype Error =
    | InitError
    | CreateNuaError
    | CreateNuaHandleError
    | UrlError
    | ConvertToCStringError
    | MissingTagConversion

  /** The errno value meaning "no error". */
  const ERROR_NONE: int := 0

  /** What a get-and-reset of the thread's errno observes and leaves behind. */
  datatype ErrnoRead = ErrnoRead(found: int, after: int)

  /** `errno()`: read the current errno and reset it to `ERROR_NONE`. */
  function GetAndReset(errno: int): (r: ErrnoRead)
    ensures r.found == errno
    ensures r.after == ERROR_NONE
  {
    ErrnoRead(errno, ERROR_NONE)
  }

  /** A second read right after the first one finds nothing, whatever the
      first one found. */
  lemma GetAndResetTwice(errno: int)
    ensures GetAndReset(GetAndReset(errno).after).found == ERROR_NONE
    ensures GetAndReset(GetAndReset(errno).after) == GetAndReset(ERROR_NONE)
  {
  }

  /** Every error is one of the six listed kinds. */
  lemma ErrorIsClosed(e: Error)
    ensures e in {InitError, CreateNuaError, CreateNuaHandleError,
                  UrlError, ConvertToCStringError, MissingTagConversion}
  {
  }
}

=== FILE: events.dfy ===
/** The closed set of engine events and the decoder from native event codes
    (src/nua/event.rs).

    The native codes are the ordinals of the engine's `nua_event_e`
    enumeration, which starts at `nua_i_error = 0` (the internal
    `nua_i_none = -1` has no variant) and lists the events in the order below;
    the Rust enum takes each discriminant from that enumeration. */
module Events {
  import opened Wrappers
  import opened Errors

  datatype Event =
    | IncomingError           // nua_i_error = 0
    | IncomingInvite          // nua_i_invite = 1
    | IncomingCancel          // nua_i_cancel = 2
    | IncomingAck             // nua_i_ack = 3
    | IncomingFork            // nua_i_fork = 4
    | IncomingActive          // nua_i_active = 5
    | IncomingTerminated      // nua_i_terminated = 6
    | IncomingState           // nua_i_state = 7
    | IncomingOutbound        // nua_i_outbound = 8
    | IncomingBye             // nua_i_bye = 9
    | IncomingOptions         // nua_i_options = 10
    | IncomingRefer           // nua_i_refer = 11
    | IncomingPublish         // nua_i_publish = 12
    | IncomingPrack           // nua_i_prack = 13
    | IncomingInfo            // nua_i_info = 14
    | Incomingupdate          // nua_i_update = 15
    | IncomingMessage         // nua_i_message = 16
    | IncomingChat            // nua_i_chat = 17
    | IncomingSubscribe       // nua_i_subscribe = 18
    | IncomingSubscription    // nua_i_subscription = 19
    | IncomingNotify          // nua_i_notify = 20
    | IncomingMethod          // nua_i_method = 21
    | IncomingMediaError      // nua_i_media_error = 22
    | ReplySetParams          // nua_r_set_params = 23
    | ReplyGetParams          // nua_r_get_params = 24
    | ReplyShutdown           // nua_r_shutdown = 25
    | ReplyNotifier           // nua_r_notifier = 26
    | ReplyTerminate          // nua_r_terminate = 27
    | ReplyAuthorize          // nua_r_authorize = 28
    | ReplyRegister           // nua_r_register = 29
    | ReplyUnregister         // nua_r_unregister = 30
    | ReplyInvite             // nua_r_invite = 31
    | ReplyCancel             // nua_r_cancel = 32
    | ReplyBye                // nua_r_bye = 33
    | ReplyOptions            // nua_r_options = 34
    | ReplyRefer              // nua_r_refer = 35
    | ReplyPublish            // nua_r_publish = 36
    | ReplyUnpublish          // nua_r_unpublish = 37
    | ReplyInfo               // nua_r_info = 38
    | ReplyPrack              // nua_r_prack = 39
    | ReplyUpdate             // nua_r_update = 40
    | ReplyMessage            // nua_r_message = 41
    | ReplyChat               // nua_r_chat = 42
    | ReplySubscribe          // nua_r_subscribe = 43
    | ReplyUnsubscribe        // nua_r_unsubscribe = 44
    | ReplyNotify             // nua_r_notify = 45
    | ReplyMethod             // nua_r_method = 46
    | ReplyAuthenticate       // nua_r_authenticate = 47
    | ReplyRedirect           // nua_r_redirect = 48
    | ReplyDestroy            // nua_r_destroy = 49
    | ReplyRespond            // nua_r_respond = 50
    | ReplyNitRespond         // nua_r_nit_respond = 51
    | ReplyAck                // nua_r_ack = 52
    | IncomingNetworkChanged  // nua_i_network_changed = 53
    | IncomingRegister        // nua_i_register = 54

  /** The variant whose code is `i`, in declaration order. */
  function EventAt(i: int): Event
    requires 0 <= i < 55
  {
    if i < 11 then EventIn0To11(i)
    else if i < 22 then EventIn11To22(i)
    else if i < 33 then EventIn22To33(i)
    else if i < 44 then EventIn33To44(i)
    else EventIn44To55(i)
  }

  function EventIn0To11(i: int): Event
    requires 0 <= i < 11
  {
    if i == 0 then IncomingError else
    if i == 1 then IncomingInvite else
    if i == 2 then IncomingCancel else
    if i == 3 then IncomingAck else
    if i == 4 then IncomingFork else
    if i == 5 then IncomingActive else
    if i == 6 then IncomingTerminated else
    if i == 7 then IncomingState else
    if i == 8 then IncomingOutbound else
    if i == 9 then IncomingBye else
    IncomingOptions
  }

  function EventIn11To22(i: int): Event
    requires 11 <= i < 22
  {
    if i == 11 then IncomingRefer else
    if i == 12 then IncomingPublish else
    if i == 13 then IncomingPrack else
    if i == 14 then IncomingInfo else
    if i == 15 then Incomingupdate else
    if i == 16 then IncomingMessage else
    if i == 17 then IncomingChat else
    if i == 18 then IncomingSubscribe else
    if i == 19 then IncomingSubscription else
    if i == 20 then IncomingNotify else
    IncomingMethod
  }

  function EventIn22To33(i: int): Event
    requires 22 <= i < 33
  {
    if i == 22 then IncomingMediaError else
    if i == 23 then ReplySetParams else
    if i == 24 then ReplyGetParams else
    if i == 25 then ReplyShutdown else
    if i == 26 then ReplyNotifier else
    if i == 27 then ReplyTerminate else
    if i == 28 then ReplyAuthorize else
    if i == 29 then ReplyRegister else
    if i == 30 then ReplyUnregister else
    if i == 31 then ReplyInvite else
    ReplyCancel
  }

  function EventIn33To44(i: int): Event
    requires 33 <= i < 44
  {
    if i == 33 then ReplyBye else
    if i == 34 then ReplyOptions else
    if i == 35 then ReplyRefer else
    if i == 36 then ReplyPublish else
    if i == 37 then ReplyUnpublish else
    if i == 38 then ReplyInfo else
    if i == 39 then ReplyPrack else
    if i == 40 then ReplyUpdate else
    if i == 41 then ReplyMessage else
    if i == 42 then ReplyChat else
    ReplySubscribe
  }

  function EventIn44To55(i: int): Event
    requires 44 <= i < 55
  {
    if i == 44 then ReplyUnsubscribe else
    if i == 45 then ReplyNotify else
    if i == 46 then ReplyMethod else
    if i == 47 then ReplyAuthenticate else
    if i == 48 then ReplyRedirect else
    if i == 49 then ReplyDestroy else
    if i == 50 then ReplyRespond else
    if i == 51 then ReplyNitRespond else
    if i == 52 then ReplyAck else
    if i == 53 then IncomingNetworkChanged else
    IncomingRegister
  }

  /** The variants from code `i` on, in declaration order. */
  function EventsFrom(i: nat): (s: seq<Event>)
    requires i <= 55
    ensures |s| == 55 - i
    ensures forall k :: 0 <= k < |s| ==> s[k] == EventAt(i + k)
    decreases 55 - i
  {
    if i == 55 then [] else [EventAt(i)] + EventsFrom(i + 1)
  }

  /** Every variant, in declaration order; the `try_from` arms are tried in
      this order. */
  const ALL_EVENTS: seq<Event> := EventsFrom(0)

  /** `e as i32`: the event's native code. */
  function Code(e: Event): (c: int)
    ensures 0 <= c < 55 && EventAt(c) == e
  {
    match e
    case IncomingError => 0
    case IncomingInvite => 1
    case IncomingCancel => 2
    case IncomingAck => 3
    case IncomingFork => 4
    case IncomingActive => 5
    case IncomingTerminated => 6
    case IncomingState => 7
    case IncomingOutbound => 8
    case IncomingBye => 9
    case IncomingOptions => 10
    case IncomingRefer => 11
    case IncomingPublish => 12
    case IncomingPrack => 13
    case IncomingInfo => 14
    case Incomingupdate => 15
    case IncomingMessage => 16
    case IncomingChat => 17
    case IncomingSubscribe => 18
    case IncomingSubscription => 19
    case IncomingNotify => 20
    case IncomingMethod => 21
    case IncomingMediaError => 22
    case ReplySetParams => 23
    case ReplyGetParams => 24
    case ReplyShutdown => 25
    case ReplyNotifier => 26
    case ReplyTerminate => 27
    case ReplyAuthorize => 28
    case ReplyRegister => 29
    case ReplyUnregister => 30
    case ReplyInvite => 31
    case ReplyCancel => 32
    case ReplyBye => 33
    case ReplyOptions => 34
    case ReplyRefer => 35
    case ReplyPublish => 36
    case ReplyUnpublish => 37
    case ReplyInfo => 38
    case ReplyPrack => 39
    case ReplyUpdate => 40
    case ReplyMessage => 41
    case ReplyChat => 42
    case ReplySubscribe => 43
    case ReplyUnsubscribe => 44
    case ReplyNotify => 45
    case ReplyMethod => 46
    case ReplyAuthenticate => 47
    case ReplyRedirect => 48
    case ReplyDestroy => 49
    case ReplyRespond => 50
    case ReplyNitRespond => 51
    case ReplyAck => 52
    case IncomingNetworkChanged => 53
    case IncomingRegister => 54
  }

  /** Codes of the reply (`nua_r_*`) events: `nua_r_set_params` up to
      `nua_r_ack`; every other code belongs to an incoming (`nua_i_*`) event. */
  predicate IsReply(e: Event) {
    Code(ReplySetParams) <= Code(e) <= Code(ReplyAck)
  }

  /** The first candidate whose code is `v`, as the chain of match arms
      `x if x == Event::V as i32 => Ok(Event::V)` finds it. */
  function DecodeIn(v: int, candidates: seq<Event>): (r: Option<Event>)
    ensures r.Some? ==> r.value in candidates && Code(r.value) == v
    ensures r.None? <==> forall e :: e in candidates ==> Code(e) != v
  {
    if candidates == [] then None
    else if Code(candidates[0]) == v then Some(candidates[0])
    else DecodeIn(v, candidates[1..])
  }

  /** `Event::try_from(v)`: the variant with code `v`, or `InitError`. */
  function TryFrom(v: int): (r: Result<Event, Error>)
    ensures r.Ok? ==> Code(r.value) == v
    ensures r.Err? ==> r.error == InitError
  {
    match DecodeIn(v, ALL_EVENTS)
    case Some(e) => Ok(e)
    case None => Err(InitError)
  }

  /** Distinct variants have distinct codes. */
  lemma CodeInjective(a: Event, b: Event)
    ensures Code(a) == Code(b) <==> a == b
  {
  }

  /** Decoding position `i` and taking the code gives `i` back; split by
      ranges of codes to keep each case analysis small. */
  lemma CodeOfEventAt(i: int)
    requires 0 <= i < 55
    ensures Code(EventAt(i)) == i
  {
    if i < 11 { CodeOfEventAtIn0To11(i); }
    else if i < 22 { CodeOfEventAtIn11To22(i); }
    else if i < 33 { CodeOfEventAtIn22To33(i); }
    else if i < 44 { CodeOfEventAtIn33To44(i); }
    else { CodeOfEventAtIn44To55(i); }
  }

  lemma CodeOfEventAtIn0To11(i: int)
    requires 0 <= i < 11
    ensures Code(EventAt(i)) == i
  {
  }

  lemma CodeOfEventAtIn11To22(i: int)
    requires 11 <= i < 22
    ensures Code(EventAt(i)) == i
  {
  }

  lemma CodeOfEventAtIn22To33(i: int)
    requires 22 <= i < 33
    ensures Code(EventAt(i)) == i
  {
  }

  lemma CodeOfEventAtIn33To44(i: int)
    requires 33 <= i < 44
    ensures Code(EventAt(i)) == i
  {
  }

  lemma CodeOfEventAtIn44To55(i: int)
    requires 44 <= i < 55
    ensures Code(EventAt(i)) == i
  {
  }

  /** Each event sits in the listing at the position of its code. */
  lemma ListedAtCode(e: Event)
    ensures ALL_EVENTS[Code(e)] == e
  {
  }

  /** The enumeration is closed: every event is listed, once. */
  lemma EventsClosed(e: Event)
    ensures e in ALL_EVENTS
    ensures |ALL_EVENTS| == 55
    ensures forall i, j :: 0 <= i < j < |ALL_EVENTS| ==> ALL_EVENTS[i] != ALL_EVENTS[j]
  {
    ListedAtCode(e);
    forall i, j | 0 <= i < j < |ALL_EVENTS|
      ensures ALL_EVENTS[i] != ALL_EVENTS[j]
    {
      CodeOfListed(i);
      CodeOfListed(j);
    }
  }

  /** Listing position and code agree. */
  lemma CodeOfListed(i: int)
    requires 0 <= i < |ALL_EVENTS|
    ensures Code(ALL_EVENTS[i]) == i
  {
    assert ALL_EVENTS[i] == EventAt(i);
    CodeOfEventAt(i);
  }

  /** Every variant's code decodes back to that variant. */
  lemma TryFromRoundTrip(e: Event)
    ensures TryFrom(Code(e)) == Ok(e)
  {
    EventsClosed(e);
    var r := TryFrom(Code(e));
    assert r.Ok?;
    CodeInjective(r.value, e);
  }

  /** A code decodes iff some variant has it; every other code is `InitError`. */
  lemma TryFromExactlyCodes(v: int)
    ensures TryFrom(v).Ok? <==> 0 <= v < |ALL_EVENTS|
    ensures TryFrom(v).Ok? <==> exists e :: Code(e) == v
    ensures (forall e :: Code(e) != v) ==> TryFrom(v) == Err(InitError)
  {
    if 0 <= v < |ALL_EVENTS| {
      CodeOfListed(v);
      TryFromRoundTrip(ALL_EVENTS[v]);
    } else {
      forall e | e in ALL_EVENTS
        ensures Code(e) != v
      {
      }
    }
  }

  /** The terminal shutdown reply is one of the replies, with the engine's
      code for `nua_r_shutdown`. */
  lemma ShutdownIsReply()
    ensures IsReply(ReplyShutdown) && Code(ReplyShutdown) == 25
    ensures !IsReply(IncomingMessage) && IsReply(ReplyMessage)
  {
    assert Code(ReplySetParams) == 23 && Code(ReplyAck) == 52;
  }
}

=== FILE: glue.dfy ===
/** The trampoline the engine calls for every event, `nua_callback_glue`
    (src/nua/nua.rs). A failed check inside it panics, and the panic is caught
    and turned into a process abort; here that is the `Aborted` outcome. */
module Glue {
  import opened Wrappers
  import opened Errors
  import opened Events
  import opened Native
  import Nua
  import Handles

  /** Why the trampoline aborts the process. */
  datatype Abort =
    | UnknownEvent(code: int)
    | NullContext
    | EngineMismatch(reported: Ptr, recorded: Ptr)
    | HandleMismatch(reported: Ptr, recorded: Ptr)

  /** The outcome of one callback: an abort, or the agent after the event and
      what its closure received. */
  datatype Dispatch = Aborted(reason: Abort) | Dispatched(nua: Nua.Nua, delivery: Option<Nua.Delivery>)

  const U32_MODULUS: int := 0x1_0000_0000

  /** A C `int` (32 bits, two's complement). */
  predicate IsCInt(x: int) {
    -0x8000_0000 <= x < 0x8000_0000
  }

  /** `status as u32`: a negative C status wraps around. */
  function StatusFromC(status: int): (s: nat)
    requires IsCInt(status)
    ensures s < U32_MODULUS
    ensures (s - status) % U32_MODULUS == 0
  {
    if status >= 0 then status else status + U32_MODULUS
  }

  /** A negative status becomes a large unsigned one, so a shutdown reply
      carrying one still counts as final. */
  lemma NegativeStatusIsFinal(status: int)
    requires IsCInt(status) && status < 0
    ensures StatusFromC(status) >= 200
    ensures Nua.CompletesShutdown(ReplyShutdown, StatusFromC(status))
  {
  }

  /** `nua_callback_glue`: decode the event code (abort if unknown), check the
      agent context and, when there is one, the handle context, then run
      `_on_sys_nua_event` with no tags. `magic` and `hmagic` are the objects
      the context pointers lead to, `None` for a null pointer. */
  function Callback(code: int, status: int, phrase: string, sysNua: Ptr, magic: Option<Nua.Nua>,
                    sysHandle: Ptr, hmagic: Option<Handles.Handle>): (d: Dispatch)
    requires IsCInt(code) && IsCInt(status)
    ensures d.Dispatched? <==>
              && TryFrom(code).Ok?
              && magic.Some? && sysNua == magic.value.ptr
              && (hmagic.Some? ==> sysHandle == hmagic.value.ptr)
    ensures TryFrom(code).Err? ==> d == Aborted(UnknownEvent(code))
    ensures TryFrom(code).Ok? && magic.None? ==> d == Aborted(NullContext)
    ensures d.Dispatched? ==>
              && d.nua.(shutdownCompleted := magic.value.shutdownCompleted) == magic.value
              && (d.nua.shutdownCompleted <==>
                    magic.value.shutdownCompleted
                    || (code == Code(ReplyShutdown) && StatusFromC(status) >= 200))
              && (d.delivery.Some? <==> magic.value.hasClosure)
              && (d.delivery.Some? ==>
                    d.delivery.value.handle.None? && d.delivery.value.tags == []
                    && Code(d.delivery.value.event) == code
                    && d.delivery.value.status == StatusFromC(status)
                    && d.delivery.value.phrase == phrase)
  {
    match TryFrom(code)
    case Err(_) => Aborted(UnknownEvent(code))
    case Ok(event) =>
      var unsigned := StatusFromC(status);
      if magic.None? then Aborted(NullContext)
      else if sysNua != magic.value.ptr then Aborted(EngineMismatch(sysNua, magic.value.ptr))
      else if hmagic.Some? && sysHandle != hmagic.value.ptr then
        Aborted(HandleMismatch(sysHandle, hmagic.value.ptr))
      else
        var r := Nua.OnEvent(magic.value, event, unsigned, phrase, []);
        assert event == ReplyShutdown <==> code == Code(ReplyShutdown) by {
          CodeInjective(event, ReplyShutdown);
        }
        Dispatched(r.0, r.1)
  }

  /** The code the engine uses for the shutdown reply completes the agent's
      shutdown exactly when its status is final. */
  lemma ShutdownReplyCompletes(status: int, phrase: string, nua: Nua.Nua)
    requires IsCInt(status) && nua.ptr != NullPtr
    ensures var d := Callback(Code(ReplyShutdown), status, phrase, nua.ptr, Some(nua), NullPtr, None);
            d.Dispatched? && (d.nua.shutdownCompleted <==> nua.shutdownCompleted || StatusFromC(status) >= 200)
  {
    TryFromRoundTrip(ReplyShutdown);
  }
}

=== FILE: handle.dfy ===
/** Dialog handles: creation under an agent, outbound MESSAGE / INVITE, and
    release (src/nua/handle.rs). As for the agent, the boxed handle's own
    address is the context ("hmagic") given to the engine, passed in as `self`. */
module Handles {
  import opened Wrappers
  import opened Errors
  import opened Tags
  import opened TagBuilder
  import opened Native
  import Nua

  /** A handle: the parent agent it borrows, its native `nua_handle_t`, and a
      flag nothing in this revision sets. */
  datatype Handle = Handle(nua: Option<Nua.Nua>, ptr: Ptr, terminateCompleted: bool)

  /** `Handle::_new`. */
  function New(): (h: Handle)
    ensures h.nua.None? && h.ptr == NullPtr && !h.terminateCompleted
  {
    Handle(None, NullPtr, false)
  }

  /** `Handle::_create`: argument checks, then `nua_handle`; the engine
      answers `created`. */
  function CreateNative(nua: Ptr, magic: Ptr, tags: Option<seq<TagItem>>, created: Ptr)
    : (e: Effect<Result<Ptr, Error>>)
    ensures nua == NullPtr || magic == NullPtr ==> e == Effect(Err(CreateNuaHandleError), [])
    ensures nua != NullPtr && magic != NullPtr ==>
              && e.calls == [NuaHandle(nua, magic, NextArgs(tags).tag, NextArgs(tags).value)]
              && (e.after.Ok? <==> created != NullPtr)
    ensures e.after.Ok? ==> e.after.value == created && created != NullPtr
    ensures e.after.Err? ==> e.after.error == CreateNuaHandleError
  {
    if nua == NullPtr || magic == NullPtr then Effect(Err(CreateNuaHandleError), [])
    else
      var args := NextArgs(tags);
      var call := NuaHandle(nua, magic, args.tag, args.value);
      if created == NullPtr then Effect(Err(CreateNuaHandleError), [call])
      else Effect(Ok(created), [call])
  }

  /** `Handle::create`: the parent reference is set only once the native
      handle exists. */
  function Create(nua: Nua.Nua, tags: seq<Tag>, self: nat, created: Ptr)
    : (e: Effect<Result<Handle, Error>>)
    ensures e.after.Ok? <==> nua.ptr != NullPtr && created != NullPtr
    ensures e.after.Ok? ==> e.after.value == Handle(Some(nua), created, false)
    ensures e.after.Err? ==> e.after.error == CreateNuaHandleError
    ensures nua.ptr == NullPtr ==> e.calls == []
    ensures nua.ptr != NullPtr ==>
              e.calls == [NuaHandle(nua.ptr, Addr(self), TagNext, ItemArray(ConvertTags(tags)))]
  {
    var c := CreateNative(nua.ptr, Addr(self), Some(ConvertTags(tags)), created);
    match c.after
    case Err(err) => Effect(Err(err), c.calls)
    case Ok(p) => Effect(Ok(Handle(Some(nua), p, false)), c.calls)
  }

  /** What `nua_handle` receives is exactly the caller's string tags, in
      order, behind `tag_next`. */
  lemma CreateCarriesTags(nua: Nua.Nua, tags: seq<Tag>, self: nat, created: Ptr)
    requires nua.ptr != NullPtr
    requires forall i :: 0 <= i < |tags| ==> tags[i].IsString()
    ensures var c := Create(nua, tags, self, created).calls[0];
            c.NuaHandle? && c.tag == TagNext && c.value.ItemArray?
            && FromWire(c.value.items) == Some(tags)
  {
    WireRoundTrip(tags);
  }

  /** `Handle::message`: one `nua_message` with `TAG_NEXT(convert_tags(tags))`. */
  function Message(h: Handle, tags: seq<Tag>): (e: Effect<Handle>)
    requires h.ptr != NullPtr
    ensures e.after == h
    ensures e.calls == [NuaMessage(h.ptr, TagNext, ItemArray(ConvertTags(tags)))]
  {
    var args := NextArgs(Some(ConvertTags(tags)));
    Effect(h, [NuaMessage(h.ptr, args.tag, args.value)])
  }

  /** `Handle::invite`: one `nua_invite` with `TAG_NEXT(convert_tags(tags))`. */
  function Invite(h: Handle, tags: seq<Tag>): (e: Effect<Handle>)
    requires h.ptr != NullPtr
    ensures e.after == h
    ensures e.calls == [NuaInvite(h.ptr, TagNext, ItemArray(ConvertTags(tags)))]
  {
    var args := NextArgs(Some(ConvertTags(tags)));
    Effect(h, [NuaInvite(h.ptr, args.tag, args.value)])
  }

  /** What a MESSAGE or INVITE hands the engine is exactly the caller's string
      tags, in order, behind `tag_next`. */
  lemma OutboundCarriesTags(h: Handle, tags: seq<Tag>)
    requires h.ptr != NullPtr
    requires forall i :: 0 <= i < |tags| ==> tags[i].IsString()
    ensures var c := Message(h, tags).calls[0];
            c.tag == TagNext && c.value.ItemArray? && FromWire(c.value.items) == Some(tags)
    ensures var c := Invite(h, tags).calls[0];
            c.tag == TagNext && c.value.ItemArray? && FromWire(c.value.items) == Some(tags)
  {
    WireRoundTrip(tags);
  }

  /** `Handle::destroy` (and `Drop for Handle`): `nua_handle_destroy` once,
      then the pointer is null. */
  function Destroy(h: Handle): (e: Effect<Handle>)
    ensures e.after.ptr == NullPtr
    ensures e.after.(ptr := h.ptr) == h
    ensures h.ptr == NullPtr ==> e == Effect(h, [])
    ensures h.ptr != NullPtr ==> e.calls == [NuaHandleDestroy(h.ptr)]
  {
    if h.ptr == NullPtr then Effect(h, [])
    else Effect(h.(ptr := NullPtr), [NuaHandleDestroy(h.ptr)])
  }

  /** Destroying twice releases the native handle exactly once. */
  lemma DestroyTwice(h: Handle)
    requires h.ptr != NullPtr
    ensures Destroy(Destroy(h).after) == Effect(Destroy(h).after, [])
    ensures Count(Destroy(h).calls + Destroy(Destroy(h).after).calls, NuaHandleDestroy(h.ptr)) == 1
  {
  }
}

=== FILE: native.dfy ===
/** The native engine boundary, seen from the wrapper: opaque pointers and the
    calls the wrapper makes. The engine itself is an oracle: what a native call
    returns is a parameter of the operation that makes it, and every operation
    reports the native calls it made, in order, so that ordering and
    "exactly once" can be stated. */
module Native {
  import opened Tags

  /** An opaque native pointer: null, or the address of a live object. */
  datatype Ptr = NullPtr | Addr(id: nat)

  /** The native entry points the wrapper calls, with the arguments that matter. */
  datatype Call =
    | SuInit
    | SuDeinit
    | SuRootCreate
    | SuRootThreading(root: Ptr, enable: bool)
    | SuRootDestroy(root: Ptr)
    | SuRootStep(root: Ptr, timeout: int)
    | SuRootSleep(root: Ptr, timeout: int)
    | SuRootRun(root: Ptr)
    | SuRootBreak(root: Ptr)
    | NuaCreate(root: Ptr, magic: Ptr, tag: TagType, value: TagValue)
    | NuaShutdown(nua: Ptr)
    | NuaDestroy(nua: Ptr)
    | NuaHandle(nua: Ptr, magic: Ptr, tag: TagType, value: TagValue)
    | NuaMessage(nh: Ptr, tag: TagType, value: TagValue)
    | NuaInvite(nh: Ptr, tag: TagType, value: TagValue)
    | NuaHandleDestroy(nh: Ptr)

  /** The state an operation leaves behind and the native calls it made. */
  datatype Effect<S> = Effect(after: S, calls: seq<Call>)

  /** How many times `c` occurs in `calls`. */
  function Count(calls: seq<Call>, c: Call): nat {
    multiset(calls)[c]
  }

  /** In a trace `first`, then calls of neither kind, then `last`, each of
      the two occurs exactly once. */
  lemma BracketedOnce(first: Call, middle: seq<Call>, last: Call)
    requires first != last && first !in middle && last !in middle
    ensures Count([first] + middle + [last], first) == 1
    ensures Count([first] + middle + [last], last) == 1
  {
    assert multiset([first] + middle + [last]) == multiset{first} + multiset(middle) + multiset{last};
  }

  /** A trace ending in the only occurrence of `last` counts it once. */
  lemma EndsOnce(middle: seq<Call>, last: Call)
    requires last !in middle
    ensures Count(middle + [last], last) == 1
  {
    assert multiset(middle + [last]) == multiset(middle) + multiset{last};
  }

  /** `n` copies of the call `c`. */
  function Repeat(c: Call, n: nat): (r: seq<Call>)
    ensures |r| == n
    ensures forall i :: 0 <= i < n ==> r[i] == c
  {
    if n == 0 then [] else [c] + Repeat(c, n - 1)
  }
}

=== FILE: nua.dfy ===
/** The user agent ("Nua") and its create / shutdown / destroy lifecycle
    (src/nua/nua.rs).

    A `Nua` value stands for the boxed agent. Its own heap address is the
    opaque context ("magic") handed to the engine; it is never null and is
    passed to the operations that need it as `self`. The user closure is only
    present or absent: what it does with an event is outside the model, and
    what it receives is returned as a `Delivery`. */
module Nua {
  import opened Wrappers
  import opened Errors
  import opened Tags
  import opened TagBuilder
  import opened Events
  import opened Native
  import Su

  /** The arguments the user closure receives for one event (the message
      view is left out). */
  datatype Delivery = Delivery(event: Event, status: nat, phrase: string,
                               handle: Option<Ptr>, tags: seq<Tag>)

  datatype Nua = Nua(root: Option<Su.Root>, ptr: Ptr, hasClosure: bool,
                     shutdownCompleted: bool)
  {
    /** A live agent knows a live root to pump; `create_with_root` sets both
        together. */
    predicate Valid() {
      ptr != NullPtr ==> root.Some? && root.value.ptr != NullPtr
    }
  }

  /** `Nua::_new`: nothing native yet. */
  function New(): (n: Nua)
    ensures n.root.None? && n.ptr == NullPtr && !n.hasClosure && !n.shutdownCompleted
    ensures n.Valid()
  {
    Nua(None, NullPtr, false, false)
  }

  /** `Nua::callback`: installs (or replaces) the user closure. */
  function Callback(nua: Nua): (n: Nua)
    ensures n.hasClosure
    ensures n.(hasClosure := nua.hasClosure) == nua
  {
    nua.(hasClosure := true)
  }

  /** `Nua::_create`: argument checks, then `nua_create` with `TAG_NULL` or
      `TAG_NEXT(tags)`; the engine answers `created`. */
  function CreateNative(root: Ptr, hasCallback: bool, magic: Ptr,
                        tags: Option<seq<TagItem>>, created: Ptr): (e: Effect<Result<Ptr, Error>>)
    ensures root == NullPtr || !hasCallback || magic == NullPtr ==>
              e == Effect(Err(CreateNuaError), [])
    ensures root != NullPtr && hasCallback && magic != NullPtr ==>
              && e.calls == [NuaCreate(root, magic, NextArgs(tags).tag, NextArgs(tags).value)]
              && (e.after.Ok? <==> created != NullPtr)
    ensures e.after.Ok? ==> e.after.value == created && created != NullPtr
    ensures e.after.Err? ==> e.after.error == CreateNuaError
  {
    if root == NullPtr || !hasCallback || magic == NullPtr then Effect(Err(CreateNuaError), [])
    else
      var args := NextArgs(tags);
      var call := NuaCreate(root, magic, args.tag, args.value);
      if created == NullPtr then Effect(Err(CreateNuaError), [call])
      else Effect(Ok(created), [call])
  }

  /** `Nua::create_with_root`: registers the trampoline with the agent's own
      address as context and the converted tag list. */
  function CreateWithRoot(root: Su.Root, tags: seq<Tag>, self: nat, created: Ptr)
    : (e: Effect<Result<Nua, Error>>)
    ensures e.after.Ok? <==> root.ptr != NullPtr && created != NullPtr
    ensures e.after.Ok? ==> e.after.value == Nua(Some(root), created, false, false)
                            && e.after.value.Valid()
    ensures e.after.Err? ==> e.after.error == CreateNuaError
    ensures root.ptr == NullPtr ==> e.calls == []
    ensures root.ptr != NullPtr ==>
              e.calls == [NuaCreate(root.ptr, Addr(self), TagNext, ItemArray(ConvertTags(tags)))]
  {
    var c := CreateNative(root.ptr, true, Addr(self), Some(ConvertTags(tags)), created);
    match c.after
    case Err(err) => Effect(Err(err), c.calls)
    case Ok(p) => Effect(Ok(Nua(Some(root), p, false, false)), c.calls)
  }

  /** What `nua_create` receives is exactly the caller's string tags, in
      order, behind `tag_next`. */
  lemma CreateCarriesTags(root: Su.Root, tags: seq<Tag>, self: nat, created: Ptr)
    requires root.ptr != NullPtr
    requires forall i :: 0 <= i < |tags| ==> tags[i].IsString()
    ensures var c := CreateWithRoot(root, tags, self, created).calls[0];
            c.NuaCreate? && c.tag == TagNext && c.value.ItemArray?
            && FromWire(c.value.items) == Some(tags)
  {
    WireRoundTrip(tags);
  }

  /** `Nua::create`: the same on the default root, created on first demand. */
  function Create(p: Su.Process, tags: seq<Tag>, self: nat, createdRoot: Ptr, created: Ptr)
    : (e: Effect<(Su.Process, Result<Nua, Error>)>)
    requires p.Valid()
    ensures e.after.0.Valid()
    ensures Su.GetDefaultRoot(p, createdRoot).after.1.Err? ==>
              && e.after.1 == Err(InitError) && e.calls == Su.GetDefaultRoot(p, createdRoot).calls
              && e.after.0 == Su.GetDefaultRoot(p, createdRoot).after.0
    ensures e.after.1.Ok? ==> e.after.1.value.Valid()
                              && e.after.1.value.root == e.after.0.defaultRoot
                              && e.after.1.value.ptr == created
    ensures Su.GetDefaultRoot(p, createdRoot).after.1.Ok? ==>
              var root := Su.GetDefaultRoot(p, createdRoot).after.1.value;
              && e.after.1 == CreateWithRoot(root, tags, self, created).after
              && e.calls == Su.GetDefaultRoot(p, createdRoot).calls
                            + CreateWithRoot(root, tags, self, created).calls
              && (e.after.1.Ok? <==> created != NullPtr)
              && (e.after.1.Err? ==> e.after.1.error == CreateNuaError)
  {
    var g := Su.GetDefaultRoot(p, createdRoot);
    match g.after.1
    case Err(err) => Effect((g.after.0, Err(err)), g.calls)
    case Ok(root) =>
      var c := CreateWithRoot(root, tags, self, created);
      Effect((g.after.0, c.after), g.calls + c.calls)
  }

  /** The terminal shutdown reply, with a final (not provisional) status. */
  predicate CompletesShutdown(event: Event, status: nat) {
    event == ReplyShutdown && status >= 200
  }

  /** `Nua::_on_sys_nua_event`: records a completed shutdown, then hands the
      event to the closure, if any, always without a handle. */
  function OnEvent(nua: Nua, event: Event, status: nat, phrase: string, tags: seq<Tag>)
    : (r: (Nua, Option<Delivery>))
    ensures r.0.shutdownCompleted <==> nua.shutdownCompleted || (event == ReplyShutdown && status >= 200)
    ensures r.0.(shutdownCompleted := nua.shutdownCompleted) == nua
    ensures r.1.Some? <==> nua.hasClosure
    ensures r.1.Some? ==> r.1.value.handle.None? && r.1.value.event == event
                          && r.1.value.status == status && r.1.value.tags == tags
                          && r.1.value.phrase == phrase
  {
    var after := if CompletesShutdown(event, status) then nua.(shutdownCompleted := true) else nua;
    var delivered := if nua.hasClosure then Some(Delivery(event, status, phrase, None, tags)) else None;
    (after, delivered)
  }

  /** Once set, the shutdown flag stays set, whatever event follows. */
  lemma ShutdownFlagMonotone(nua: Nua, event: Event, status: nat, phrase: string, tags: seq<Tag>)
    requires nua.shutdownCompleted
    ensures OnEvent(nua, event, status, phrase, tags).0 == nua
  {
  }

  /** One event the engine reports from inside a step, already decoded. */
  datatype Incoming = Incoming(event: Event, status: nat, phrase: string)

  predicate Completes(x: Incoming) {
    CompletesShutdown(x.event, x.status)
  }

  /** Some event in `xs` completes the shutdown. */
  predicate AnyCompletes(xs: seq<Incoming>) {
    exists i :: 0 <= i < |xs| && Completes(xs[i])
  }

  /** What the closure receives for each of `xs`, in order. */
  function Deliveries(xs: seq<Incoming>): (ds: seq<Delivery>)
    ensures |ds| == |xs|
    ensures forall i :: 0 <= i < |xs| ==>
              ds[i] == Delivery(xs[i].event, xs[i].status, xs[i].phrase, None, [])
  {
    if xs == [] then []
    else [Delivery(xs[0].event, xs[0].status, xs[0].phrase, None, [])] + Deliveries(xs[1..])
  }

  /** Events run through `OnEvent` in order, as the engine reports them. */
  function DeliverAll(nua: Nua, xs: seq<Incoming>): (r: (Nua, seq<Delivery>))
    ensures r.0.shutdownCompleted <==> nua.shutdownCompleted || AnyCompletes(xs)
    ensures r.0.(shutdownCompleted := nua.shutdownCompleted) == nua
    ensures |r.1| == if nua.hasClosure then |xs| else 0
    ensures nua.hasClosure ==> forall i :: 0 <= i < |xs| ==>
              r.1[i] == Delivery(xs[i].event, xs[i].status, xs[i].phrase, None, [])
    decreases |xs|
  {
    if xs == [] then (nua, [])
    else
      var first := OnEvent(nua, xs[0].event, xs[0].status, xs[0].phrase, []);
      var rest := DeliverAll(first.0, xs[1..]);
      assert AnyCompletes(xs) <==> Completes(xs[0]) || AnyCompletes(xs[1..]) by {
        if AnyCompletes(xs[1..]) {
          var i :| 0 <= i < |xs[1..]| && Completes(xs[1..][i]);
          assert xs[i + 1] == xs[1..][i];
        }
        if AnyCompletes(xs) && !Completes(xs[0]) {
          var i :| 0 <= i < |xs| && Completes(xs[i]);
          assert xs[1..][i - 1] == xs[i];
        }
      }
      var out := (if first.1.Some? then [first.1.value] else []) + rest.1;
      assert nua.hasClosure ==> forall i :: 1 <= i < |xs| ==> out[i] == rest.1[i - 1];
      (rest.0, out)
  }

  /** Run through `OnEvent`, a list of events reaches the closure as exactly
      its deliveries. */
  lemma DeliverAllIsDeliveries(nua: Nua, xs: seq<Incoming>)
    ensures DeliverAll(nua, xs).1 == if nua.hasClosure then Deliveries(xs) else []
  {
  }

  /** What one `step(Some(1))` does while waiting: the events the engine
      reports from inside it, and the value it returns. */
  datatype StepRun = StepRun(events: seq<Incoming>, remaining: int)

  /** Some step of `runs` reports a completed shutdown. */
  predicate ShutdownIn(runs: seq<StepRun>) {
    runs != [] && (AnyCompletes(runs[0].events) || ShutdownIn(runs[1..]))
  }

  lemma ShutdownInPrefix(runs: seq<StepRun>, k: nat)
    requires 0 < |runs| && k < |runs|
    ensures ShutdownIn(runs[..k + 1]) <==> AnyCompletes(runs[0].events) || ShutdownIn(runs[1..][..k])
  {
    assert runs[..k + 1][0] == runs[0];
    assert runs[..k + 1][1..] == runs[1..][..k];
  }

  /** What the closure receives over the steps of `runs`, in order. */
  function DeliveriesOf(runs: seq<StepRun>): seq<Delivery> {
    if runs == [] then [] else Deliveries(runs[0].events) + DeliveriesOf(runs[1..])
  }

  lemma DeliveriesOfPrefix(runs: seq<StepRun>, k: nat)
    requires 0 < |runs| && k < |runs|
    ensures DeliveriesOf(runs[..k + 1]) == Deliveries(runs[0].events) + DeliveriesOf(runs[1..][..k])
  {
    assert runs[..k + 1][0] == runs[0];
    assert runs[..k + 1][1..] == runs[1..][..k];
  }

  /** Why the wait returned; `OutOfScript` means the engine's answers ran out
      while the loop was still going. */
  datatype WaitEnd = AlreadyCompleted | Completed | StepFailed | OutOfScript

  /** The outcome of a wait: the agent after it, the native calls, what the
      closure received, how many steps were taken, and why it stopped. */
  datatype Wait = Wait(nua: Nua, calls: seq<Call>, deliveries: seq<Delivery>,
                       consumed: nat, end: WaitEnd)

  /** The loop of `shutdown_and_wait`: while the flag is clear, step the
      agent's root with a 1 ms timeout and leave on a negative answer. */
  function Pump(nua: Nua, script: seq<StepRun>): (w: Wait)
    requires nua.root.Some? && nua.root.value.ptr != NullPtr
    ensures w.consumed <= |script|
    ensures w.calls == Repeat(SuRootStep(nua.root.value.ptr, 1), w.consumed)
    ensures w.nua.(shutdownCompleted := nua.shutdownCompleted) == nua
    ensures w.nua.shutdownCompleted <==> nua.shutdownCompleted || ShutdownIn(script[..w.consumed])
    ensures forall k :: 0 <= k < w.consumed ==> !nua.shutdownCompleted && !ShutdownIn(script[..k])
    ensures forall k :: 0 <= k < w.consumed - 1 ==> script[k].remaining >= 0
    ensures w.end != AlreadyCompleted
    ensures w.end == Completed ==> w.nua.shutdownCompleted
    ensures w.end == StepFailed ==> 0 < w.consumed && script[w.consumed - 1].remaining < 0
    ensures w.end == OutOfScript ==> w.consumed == |script| && !w.nua.shutdownCompleted
    decreases |script|
  {
    if nua.shutdownCompleted then Wait(nua, [], [], 0, Completed)
    else if script == [] then Wait(nua, [], [], 0, OutOfScript)
    else
      // the engine runs the callbacks from inside the step
      var d := DeliverAll(nua, script[0].events);
      var s := Su.Step(nua.root.value, Some(1), script[0].remaining);
      if s.after < 0 then
        assert script[..1][1..] == [];
        Wait(d.0, s.calls, d.1, 1, StepFailed)
      else
        var rest := Pump(d.0, script[1..]);
        ShutdownInPrefix(script, rest.consumed);
        forall k | 0 < k < rest.consumed + 1
          ensures !ShutdownIn(script[..k])
        {
          ShutdownInPrefix(script, k - 1);
        }
        assert script[..0] == [];
        assert forall k :: 1 <= k < |script| ==> script[k] == script[1..][k - 1];
        Wait(rest.nua, s.calls + rest.calls, d.1 + rest.deliveries, rest.consumed + 1, rest.end)
  }

  /** A wait reported as unfinished met no negative step: a negative answer
      anywhere in the script would have ended it. */
  lemma {:induction false} PumpOutOfScriptSawNoFailure(nua: Nua, script: seq<StepRun>)
    requires nua.root.Some? && nua.root.value.ptr != NullPtr
    ensures Pump(nua, script).end == OutOfScript ==>
              forall k :: 0 <= k < |script| ==> script[k].remaining >= 0
    decreases |script|
  {
    if !nua.shutdownCompleted && script != [] && script[0].remaining >= 0 {
      var d := DeliverAll(nua, script[0].events);
      PumpOutOfScriptSawNoFailure(d.0, script[1..]);
      assert forall k :: 1 <= k < |script| ==> script[k] == script[1..][k - 1];
    }
  }

  /** The closure receives every event of every step the wait took, in
      order, and nothing when there is no closure. */
  lemma {:induction false} PumpDelivers(nua: Nua, script: seq<StepRun>)
    requires nua.root.Some? && nua.root.value.ptr != NullPtr
    ensures Pump(nua, script).deliveries
            == if nua.hasClosure then DeliveriesOf(script[..Pump(nua, script).consumed]) else []
    decreases |script|
  {
    if !nua.shutdownCompleted && script != [] {
      var d := DeliverAll(nua, script[0].events);
      DeliverAllIsDeliveries(nua, script[0].events);
      if script[0].remaining < 0 {
        assert script[..1][1..] == [];
        assert DeliveriesOf(script[..1]) == Deliveries(script[0].events) + [];
      } else {
        PumpDelivers(d.0, script[1..]);
        DeliveriesOfPrefix(script, Pump(d.0, script[1..]).consumed);
      }
    }
  }

  /** `Nua::shutdown`: asks the engine once, unless shutdown already completed. */
  function Shutdown(nua: Nua): (e: Effect<Nua>)
    requires nua.shutdownCompleted || nua.ptr != NullPtr
    ensures e.after == nua
    ensures nua.shutdownCompleted ==> e.calls == []
    ensures !nua.shutdownCompleted ==> e.calls == [NuaShutdown(nua.ptr)]
  {
    if nua.shutdownCompleted then Effect(nua, [])
    else Effect(nua, [NuaShutdown(nua.ptr)])
  }

  /** `Nua::shutdown_and_wait`: shut down, then pump until the shutdown reply
      arrives or a step goes negative. */
  function ShutdownAndWait(nua: Nua, script: seq<StepRun>): (w: Wait)
    requires nua.Valid()
    requires nua.shutdownCompleted || nua.ptr != NullPtr
    ensures nua.shutdownCompleted ==> w == Wait(nua, [], [], 0, AlreadyCompleted)
    ensures !nua.shutdownCompleted ==>
              w.calls == [NuaShutdown(nua.ptr)] + Repeat(SuRootStep(nua.root.value.ptr, 1), w.consumed)
    ensures w.consumed <= |script|
    ensures w.nua.(shutdownCompleted := nua.shutdownCompleted) == nua
    ensures w.nua.shutdownCompleted <==> nua.shutdownCompleted || ShutdownIn(script[..w.consumed])
    ensures w.end != OutOfScript ==>
              w.nua.shutdownCompleted || (0 < w.consumed && script[w.consumed - 1].remaining < 0)
    ensures w.end == OutOfScript ==> w.consumed == |script| && !w.nua.shutdownCompleted
    ensures w.deliveries == if nua.hasClosure then DeliveriesOf(script[..w.consumed]) else []
    ensures !nua.shutdownCompleted ==>
              && w.nua == Pump(nua, script).nua
              && w.consumed == Pump(nua, script).consumed
              && w.end == Pump(nua, script).end
  {
    if nua.shutdownCompleted then Wait(nua, [], [], 0, AlreadyCompleted)
    else
      var s := Shutdown(nua);
      var p := Pump(s.after, script);
      PumpDelivers(s.after, script);
      Wait(p.nua, s.calls + p.calls, p.deliveries, p.consumed, p.end)
  }

  /** The wait takes no step once the shutdown reply has arrived, and leaves
      at the first step that goes negative. */
  lemma ShutdownAndWaitStopsEarly(nua: Nua, script: seq<StepRun>)
    requires nua.Valid()
    requires nua.shutdownCompleted || nua.ptr != NullPtr
    ensures var w := ShutdownAndWait(nua, script);
            && (forall k :: 0 <= k < w.consumed ==> !ShutdownIn(script[..k]))
            && (forall k :: 0 <= k < w.consumed - 1 ==> script[k].remaining >= 0)
  {
  }

  /** `Nua::_destroy`: `nua_destroy` once, then the pointer is null. */
  function DestroyNative(nua: Nua): (e: Effect<Nua>)
    ensures e.after.ptr == NullPtr
    ensures e.after.(ptr := nua.ptr) == nua
    ensures nua.ptr == NullPtr ==> e.calls == []
    ensures nua.ptr != NullPtr ==> e.calls == [NuaDestroy(nua.ptr)]
  {
    if nua.ptr == NullPtr then Effect(nua, [])
    else Effect(nua.(ptr := NullPtr), [NuaDestroy(nua.ptr)])
  }

  /** The outcome of `destroy`; `finished` is false when the wait before the
      native destroy was still pumping when the engine's answers ran out. */
  datatype Teardown = Teardown(nua: Nua, calls: seq<Call>, deliveries: seq<Delivery>,
                               finished: bool)

  /** `Nua::destroy` (and `Drop for Nua`): shut down and wait, then release
      the native agent. */
  function Destroy(nua: Nua, script: seq<StepRun>): (t: Teardown)
    requires nua.Valid()
    ensures nua.ptr == NullPtr ==> t == Teardown(nua, [], [], true)
    ensures t.finished ==> t.nua.ptr == NullPtr && t.nua.Valid()
    ensures nua.ptr != NullPtr && t.finished ==>
              t.calls == ShutdownAndWait(nua, script).calls + [NuaDestroy(nua.ptr)]
    ensures nua.ptr != NullPtr ==>
              (t.finished <==> ShutdownAndWait(nua, script).end != OutOfScript)
    ensures !t.finished ==> NuaDestroy(nua.ptr) !in t.calls
    ensures nua.ptr != NullPtr ==> t.deliveries == ShutdownAndWait(nua, script).deliveries
    ensures nua.ptr != NullPtr && t.finished ==>
              t.nua == ShutdownAndWait(nua, script).nua.(ptr := NullPtr)
  {
    if nua.ptr == NullPtr then Teardown(nua, [], [], true)
    else
      var w := ShutdownAndWait(nua, script);
      if w.end == OutOfScript then Teardown(w.nua, w.calls, w.deliveries, false)
      else
        var d := DestroyNative(w.nua);
        Teardown(d.after, w.calls + d.calls, w.deliveries, true)
  }

  /** A finished destroy releases the agent exactly once, after asking for
      the shutdown (unless that had already completed). */
  lemma DestroyOrdersShutdownFirst(nua: Nua, script: seq<StepRun>)
    requires nua.Valid() && nua.ptr != NullPtr
    requires Destroy(nua, script).finished
    ensures var t := Destroy(nua, script);
            && Count(t.calls, NuaDestroy(nua.ptr)) == 1
            && (!nua.shutdownCompleted ==>
                  t.calls[0] == NuaShutdown(nua.ptr) && Count(t.calls, NuaShutdown(nua.ptr)) == 1)
  {
    var t := Destroy(nua, script);
    var w := ShutdownAndWait(nua, script);
    var steps := Repeat(SuRootStep(nua.root.value.ptr, 1), w.consumed);
    if nua.shutdownCompleted {
      EndsOnce([], NuaDestroy(nua.ptr));
    } else {
      assert t.calls == [NuaShutdown(nua.ptr)] + steps + [NuaDestroy(nua.ptr)];
      BracketedOnce(NuaShutdown(nua.ptr), steps, NuaDestroy(nua.ptr));
    }
  }

  /** The agent holds its root as it was when it was created. After `deinit`
      releases the default root, an agent made by `Nua::create` still names
      that root, and destroying the agent steps it. */
  lemma DeinitLeavesAgentOnReleasedRoot(r: Ptr, tags: seq<Tag>, self: nat, created: Ptr)
    requires r != NullPtr && created != NullPtr
    ensures var p := Su.Process(true, true, Some(Su.Root(r, false)), ERROR_NONE);
            var c := Create(p, tags, self, NullPtr, created);
            && c.after.1.Ok? && c.after.1.value.root == Some(Su.Root(r, false))
            && Su.Deinit(c.after.0).after.defaultRoot.None?
            && SuRootDestroy(r) in Su.Deinit(c.after.0).calls
            && SuRootStep(r, 1) in Destroy(c.after.1.value, [StepRun([], -1)]).calls
  {
  }

  /** A second destroy is a no-op. */
  lemma DestroyTwice(nua: Nua, first: seq<StepRun>, second: seq<StepRun>)
    requires nua.Valid()
    ensures Destroy(nua, first).finished ==>
              Destroy(Destroy(nua, first).nua, second) == Teardown(Destroy(nua, first).nua, [], [], true)
  {
  }

  /** Dropping a freshly made agent (the error path of `create_with_root`)
      makes no native call. */
  lemma NewDestroyIsNoop(script: seq<StepRun>)
    ensures Destroy(New(), script) == Teardown(New(), [], [], true)
  {
  }

  /** Destroy does not guarantee a completed shutdown: when a step goes
      negative before the shutdown reply, the agent is released anyway. */
  lemma DestroyWithoutShutdownReply(root: Su.Root)
    requires root.ptr != NullPtr
    ensures var nua := Nua(Some(root), Addr(7), false, false);
            var t := Destroy(nua, [StepRun([], -1)]);
            t.finished && !t.nua.shutdownCompleted && t.nua.ptr == NullPtr
  {
  }
}

=== FILE: su.dfy ===
/** The reactor ("root") and the process-wide library state (src/su.rs).

    The two process-wide atomic flags and the default-root slot are the fields
    of a `Process` value; every operation on them takes the current `Process`
    and returns the next one. */
module Su {
  import opened Wrappers
  import opened Errors
  import opened Native

  /** A reactor: its native `su_root_t` and the `rush` re-entrancy flag. */
  datatype Root = Root(ptr: Ptr, rushing: bool)

  /** Timeout used when the caller gives none or an unreasonable one (ms). */
  const DEFAULT_TIMEOUT: int := 100

  /** Timeouts at or above this bound (ms) fall back to the default. */
  const TIMEOUT_BOUND: int := 1000

  /** The timeout `step` forwards to the engine. */
  function Timeout(t: Option<int>): (ms: int)
    ensures 0 <= ms < TIMEOUT_BOUND
    ensures t.Some? && 0 <= t.value < TIMEOUT_BOUND ==> ms == t.value
    ensures !(t.Some? && 0 <= t.value < TIMEOUT_BOUND) ==> ms == DEFAULT_TIMEOUT
  {
    match t
    case Some(x) => if x >= 0 && x < TIMEOUT_BOUND then x else DEFAULT_TIMEOUT
    case None => DEFAULT_TIMEOUT
  }

  /** A clamped timeout passes through the clamp unchanged. */
  lemma TimeoutIdempotent(t: Option<int>)
    ensures Timeout(Some(Timeout(t))) == Timeout(t)
  {
  }

  /** `Root::step`: one `su_root_step` with the clamped timeout; the engine's
      answer (`native`) is returned as is. */
  function Step(root: Root, timeout: Option<int>, native: int): (e: Effect<int>)
    requires root.ptr != NullPtr
    ensures e.after == native
    ensures e.calls == [SuRootStep(root.ptr, Timeout(timeout))]
  {
    Effect(native, [SuRootStep(root.ptr, Timeout(timeout))])
  }

  /** `Root::sleep`: the timeout goes to the engine unclamped. */
  function Sleep(root: Root, timeout: int, native: int): (e: Effect<int>)
    requires root.ptr != NullPtr
    ensures e.after == native
    ensures e.calls == [SuRootSleep(root.ptr, timeout)]
  {
    Effect(native, [SuRootSleep(root.ptr, timeout)])
  }

  /** `Root::run`. */
  function Run(root: Root): (e: Effect<Root>)
    requires root.ptr != NullPtr
    ensures e == Effect(root, [SuRootRun(root.ptr)])
  {
    Effect(root, [SuRootRun(root.ptr)])
  }

  /** `Root::break`. */
  function Break(root: Root): (e: Effect<Root>)
    requires root.ptr != NullPtr
    ensures e == Effect(root, [SuRootBreak(root.ptr)])
  {
    Effect(root, [SuRootBreak(root.ptr)])
  }

  /** `Root::_create`: `su_root_create` answered `created`; on success the
      root's internal threading is switched off. */
  function Create(created: Ptr): (e: Effect<Result<Root, Error>>)
    ensures e.after.Ok? <==> created != NullPtr
    ensures e.after.Ok? ==> e.after.value == Root(created, false)
                            && e.calls == [SuRootCreate, SuRootThreading(created, false)]
    ensures e.after.Err? ==> e.after.error == InitError && e.calls == [SuRootCreate]
  {
    if created == NullPtr then Effect(Err(InitError), [SuRootCreate])
    else Effect(Ok(Root(created, false)), [SuRootCreate, SuRootThreading(created, false)])
  }

  /** `Root::_destroy` (and `Drop for Root`). */
  function Destroy(root: Root): (e: Effect<Root>)
    ensures e.after.ptr == NullPtr && e.after.rushing == root.rushing
    ensures root.ptr == NullPtr ==> e == Effect(root, [])
    ensures root.ptr != NullPtr ==> e.calls == [SuRootDestroy(root.ptr)]
  {
    if root.ptr == NullPtr then Effect(root, [])
    else Effect(root.(ptr := NullPtr), [SuRootDestroy(root.ptr)])
  }

  /** Destroying twice releases the native root exactly once. */
  lemma DestroyTwice(root: Root)
    requires root.ptr != NullPtr
    ensures Destroy(Destroy(root).after) == Effect(Destroy(root).after, [])
    ensures Count(Destroy(root).calls + Destroy(Destroy(root).after).calls,
                  SuRootDestroy(root.ptr)) == 1
  {
  }

  /** `Root::stop`: clears the flag `rush` checks after every step. */
  function Stop(root: Root): (r: Root)
    ensures !r.rushing && r.ptr == root.ptr
  {
    root.(rushing := false)
  }

  /** One `step(None)` inside `rush`, as the engine answers it: the value
      returned, the errno left behind, and whether an event callback run
      inside the step called `stop`. */
  datatype RushStep = RushStep(remaining: int, errno: int, stopped: bool)

  /** Why a `rush` returned; `OutOfScript` means the engine's answers ran out
      while the loop was still going. */
  datatype RushEnd = AlreadyRushing | Stopped | StepFailed | OutOfScript

  /** A negative step with errno set ends the loop. */
  predicate StepFails(s: RushStep) {
    s.remaining < 0 && s.errno != ERROR_NONE
  }

  /** A step after which the loop exits. */
  predicate EndsRush(s: RushStep) {
    StepFails(s) || s.stopped
  }

  /** The loop of `rush`: how many steps it took, the calls made, whether
      `stop` was called, why it ended, and the errno it leaves. */
  datatype RushRun = RushRun(steps: nat, calls: seq<Call>, stopped: bool, end: RushEnd,
                             errno: int)

  /** The errno a round leaves: a negative step's errno is read (and so
      reset), any other step's stays where the engine put it. */
  function ErrnoAfter(s: RushStep): int {
    if s.remaining < 0 then GetAndReset(s.errno).after else s.errno
  }

  /** The body of `rush` after the guard. Each round clears errno, steps with
      the default timeout, and leaves on failure or once `stop` was called. */
  function RushLoop(ptr: Ptr, script: seq<RushStep>): (r: RushRun)
    requires ptr != NullPtr
    ensures r.steps <= |script|
    ensures r.calls == Repeat(SuRootStep(ptr, DEFAULT_TIMEOUT), r.steps)
    ensures r.end != AlreadyRushing
    ensures r.end == OutOfScript <==> forall i :: 0 <= i < |script| ==> !EndsRush(script[i])
    ensures r.end == OutOfScript ==> r.steps == |script| && !r.stopped
    ensures r.end != OutOfScript ==>
              && 0 < r.steps
              && EndsRush(script[r.steps - 1])
              && (forall i :: 0 <= i < r.steps - 1 ==> !EndsRush(script[i]))
              && r.stopped == script[r.steps - 1].stopped
              && (r.end == StepFailed <==> StepFails(script[r.steps - 1]))
              && r.errno == ErrnoAfter(script[r.steps - 1])
    ensures r.end == OutOfScript ==> r.errno == ERROR_NONE
  {
    // out of answers the loop is about to start a round, whose first act clears errno
    if script == [] then RushRun(0, [], false, OutOfScript, ERROR_NONE)
    else
      var s := Step(Root(ptr, true), None, script[0].remaining);
      // errno() before the step cleared errno; the one after reads what the step left
      var read := GetAndReset(script[0].errno);
      var left := if s.after < 0 then read.after else script[0].errno;
      if s.after < 0 && read.found != ERROR_NONE then
        RushRun(1, s.calls, script[0].stopped, StepFailed, left)
      else if script[0].stopped then
        RushRun(1, s.calls, true, Stopped, left)
      else
        var rest := RushLoop(ptr, script[1..]);
        assert forall i :: 1 <= i < |script| ==> script[i] == script[1..][i - 1];
        RushRun(rest.steps + 1, s.calls + rest.calls, rest.stopped, rest.end, rest.errno)
  }

  /** `Root::rush` as written: the flag is cleared only by `stop`, so a loop
      left through a failing step keeps `rushing` set. */
  function RushAsWritten(root: Root, script: seq<RushStep>): (e: Effect<(Root, RushEnd)>)
    requires root.rushing || root.ptr != NullPtr
    ensures root.rushing ==> e == Effect((root, AlreadyRushing), [])
    ensures !root.rushing ==> e.calls == RushLoop(root.ptr, script).calls
                              && e.after.1 == RushLoop(root.ptr, script).end
    ensures e.after.0.ptr == root.ptr
    ensures !root.rushing ==> e.after.0.rushing == !RushLoop(root.ptr, script).stopped
  {
    if root.rushing then Effect((root, AlreadyRushing), [])
    else
      var run := RushLoop(root.ptr, script);
      var after := if run.stopped then Stop(root.(rushing := true)) else root.(rushing := true);
      Effect((after, run.end), run.calls)
  }

  /** As written, one failing step leaves the root flagged as rushing, and
      every later `rush` on it returns at once without stepping. */
  lemma RushAsWrittenStaysLocked(later: seq<RushStep>)
    ensures var first := RushAsWritten(Root(Addr(1), false), [RushStep(-1, 5, false)]);
            && first.after.1 == StepFailed
            && first.after.0.rushing
            && RushAsWritten(first.after.0, later).calls == []
  {
  }

  /** `Root::rush` with the flag cleared on every exit from the loop, so the
      guard only turns away a call made from inside a running `rush`. */
  function Rush(root: Root, script: seq<RushStep>): (e: Effect<(Root, RushEnd)>)
    requires root.rushing || root.ptr != NullPtr
    ensures root.rushing ==> e == Effect((root, AlreadyRushing), [])
    ensures !root.rushing ==> e.calls == RushLoop(root.ptr, script).calls
                              && e.after.1 == RushLoop(root.ptr, script).end
    ensures e.after.0.ptr == root.ptr
    ensures !root.rushing && e.after.1 != OutOfScript ==> !e.after.0.rushing
  {
    if root.rushing then Effect((root, AlreadyRushing), [])
    else
      var run := RushLoop(root.ptr, script);
      var after := if run.end == OutOfScript then root.(rushing := true) else Stop(root);
      Effect((after, run.end), run.calls)
  }

  /** After any `rush` that returned, the next `rush` steps the engine again. */
  lemma RushCanRunAgain(root: Root, first: seq<RushStep>, next: seq<RushStep>)
    requires !root.rushing && root.ptr != NullPtr
    requires Rush(root, first).after.1 != OutOfScript
    requires |next| > 0
    ensures var again := Rush(Rush(root, first).after.0, next);
            again.after.1 != AlreadyRushing && |again.calls| > 0
  {
  }

  /** The outcome of `rush_until_next_timer`. */
  datatype TimerRun = TimerRun(steps: nat, calls: seq<Call>, reachedTimer: bool)

  /** `Root::rush_until_next_timer`: steps with a 1 ms timeout until a step
      returns zero or less. */
  function RushUntilNextTimer(root: Root, remaining: seq<int>): (r: TimerRun)
    requires root.ptr != NullPtr
    ensures r.steps <= |remaining|
    ensures r.calls == Repeat(SuRootStep(root.ptr, 1), r.steps)
    ensures r.reachedTimer ==> 0 < r.steps && remaining[r.steps - 1] <= 0
    ensures forall i :: 0 <= i < r.steps - 1 ==> remaining[i] > 0
    ensures !r.reachedTimer ==> r.steps == |remaining| && forall i :: 0 <= i < |remaining| ==> remaining[i] > 0
  {
    if remaining == [] then TimerRun(0, [], false)
    else
      var s := Step(root, Some(1), remaining[0]);
      if s.after <= 0 then TimerRun(1, s.calls, true)
      else
        var rest := RushUntilNextTimer(root, remaining[1..]);
        assert forall i :: 1 <= i < |remaining| ==> remaining[i] == remaining[1..][i - 1];
        TimerRun(rest.steps + 1, s.calls + rest.calls, rest.reachedTimer)
  }

  /** The process-wide state: the library flag, the default-root flag, the
      default-root slot, and the thread's errno. */
  datatype Process = Process(initialized: bool, rootInitialized: bool,
                             defaultRoot: Option<Root>, errno: int)
  {
    /** The flags agree with the slot, and a default root implies the library. */
    predicate Valid() {
      && (rootInitialized <==> defaultRoot.Some?)
      && (rootInitialized ==> initialized)
      && (defaultRoot.Some? ==> defaultRoot.value.ptr != NullPtr)
    }
  }

  /** The state at program start: both flags false, no default root. */
  const START: Process := Process(false, false, None, ERROR_NONE)

  /** The process starts consistent, with nothing initialised. */
  lemma StartIsValid()
    ensures START.Valid()
    ensures !START.initialized && !START.rootInitialized && START.defaultRoot.None?
  {
  }

  /** `init`: calls `su_init` only when the library is not yet initialised;
      the errno `su_init` leaves is read and discarded. */
  function Init(p: Process): (e: Effect<Process>)
    ensures e.after.initialized
    ensures p.initialized ==> e == Effect(p, [])
    ensures !p.initialized ==> e.calls == [SuInit] && e.after.errno == ERROR_NONE
    ensures e.after.rootInitialized == p.rootInitialized && e.after.defaultRoot == p.defaultRoot
    ensures p.Valid() ==> e.after.Valid()
  {
    if p.initialized then Effect(p, [])
    else Effect(p.(initialized := true, errno := GetAndReset(p.errno).after), [SuInit])
  }

  /** `init` is idempotent: the second call changes nothing and calls nothing. */
  lemma InitIdempotent(p: Process)
    ensures Init(Init(p).after) == Effect(Init(p).after, [])
    ensures Count(Init(p).calls + Init(Init(p).after).calls, SuInit) <= 1
  {
  }

  /** `Root::new`: `init`, then `_create`. */
  function New(p: Process, created: Ptr): (e: Effect<(Process, Result<Root, Error>)>)
    ensures e.after.0.initialized
    ensures e.after.0 == Init(p).after
    ensures e.after.1 == Create(created).after
    ensures e.calls == (if p.initialized then [] else [SuInit]) + Create(created).calls
  {
    var i := Init(p);
    var c := Create(created);
    Effect((i.after, c.after), i.calls + c.calls)
  }

  /** `deinit_default_root`: releases the default root if there is one. */
  function DeinitDefaultRoot(p: Process): (e: Effect<Process>)
    requires p.Valid()
    ensures e.after.Valid()
    ensures !e.after.rootInitialized && e.after.defaultRoot.None?
    ensures e.after.initialized == p.initialized
    ensures !p.rootInitialized ==> e == Effect(p, [])
    ensures p.rootInitialized ==> e.calls == [SuRootDestroy(p.defaultRoot.value.ptr)]
  {
    if !p.rootInitialized then Effect(p, [])
    else
      // get_default_root_as_mut(): with both flags set, init_default_root
      // returns at once and the slot holds the root
      var d := Destroy(p.defaultRoot.value);
      Effect(p.(defaultRoot := None, rootInitialized := false), d.calls)
  }

  /** `deinit`: `su_deinit`, then the default root, then the library flag. */
  function Deinit(p: Process): (e: Effect<Process>)
    requires p.Valid()
    ensures e.after.Valid()
    ensures !e.after.initialized && !e.after.rootInitialized
    ensures !p.initialized ==> e == Effect(p, [])
    ensures p.initialized ==> e.calls == [SuDeinit] + DeinitDefaultRoot(p).calls
  {
    if !p.initialized then Effect(p, [])
    else
      var d := DeinitDefaultRoot(p);
      Effect(d.after.(initialized := false), [SuDeinit] + d.calls)
  }

  /** As written, `deinit` shuts the library down first and destroys the
      default root after it, while every use of the raw bindings destroys
      a root before `su_deinit`. */
  lemma DeinitReleasesRootAfterLibrary(r: Ptr)
    requires r != NullPtr
    ensures var d := Deinit(Process(true, true, Some(Root(r, false)), ERROR_NONE));
            d.calls == [SuDeinit, SuRootDestroy(r)]
  {
  }

  /** `deinit` with the default root released while the library is still
      up: the same end state, with `su_deinit` as the last call. */
  function DeinitRootFirst(p: Process): (e: Effect<Process>)
    requires p.Valid()
    ensures e.after.Valid()
    ensures !e.after.initialized && !e.after.rootInitialized && e.after.defaultRoot.None?
    ensures !p.initialized ==> e == Effect(p, [])
    ensures p.initialized ==> |e.calls| > 0 && e.calls[|e.calls| - 1] == SuDeinit
                              && SuDeinit !in e.calls[..|e.calls| - 1]
    ensures p.rootInitialized ==> SuRootDestroy(p.defaultRoot.value.ptr) in e.calls
  {
    if !p.initialized then Effect(p, [])
    else
      var d := DeinitDefaultRoot(p);
      Effect(d.after.(initialized := false), d.calls + [SuDeinit])
  }

  /** Both orders reach the same state and make the same calls; only the
      order of the two releases differs. */
  lemma DeinitOrdersAgree(p: Process)
    requires p.Valid()
    ensures DeinitRootFirst(p).after == Deinit(p).after
    ensures multiset(DeinitRootFirst(p).calls) == multiset(Deinit(p).calls)
  {
  }

  /** `deinit` after `deinit` is a no-op. */
  lemma DeinitIdempotent(p: Process)
    requires p.Valid()
    ensures Deinit(Deinit(p).after) == Effect(Deinit(p).after, [])
  {
  }

  /** `init_default_root`: initialises the library, then creates the default
      root unless one exists. */
  function InitDefaultRoot(p: Process, created: Ptr): (e: Effect<(Process, Result<(), Error>)>)
    requires p.Valid()
    ensures e.after.0.Valid() && e.after.0.initialized
    ensures e.after.1.Ok? <==> (p.rootInitialized || created != NullPtr)
    ensures e.after.1.Ok? ==> e.after.0.rootInitialized
    ensures e.after.1.Err? ==> e.after.1.error == InitError && !e.after.0.rootInitialized
    ensures p.rootInitialized ==> e == Effect((p, Ok(())), [])
    ensures !p.rootInitialized ==> e.calls == Init(p).calls + Create(created).calls
    ensures !p.rootInitialized && created != NullPtr ==>
              e.after.0.defaultRoot == Some(Root(created, false))
  {
    var i := Init(p);
    if i.after.rootInitialized then Effect((i.after, Ok(())), i.calls)
    else
      var c := Create(created);
      match c.after
      case Err(err) => Effect((i.after, Err(err)), i.calls + c.calls)
      case Ok(root) =>
        Effect((i.after.(defaultRoot := Some(root), rootInitialized := true), Ok(())),
               i.calls + c.calls)
  }

  /** The default root is created at most once, however often it is asked for. */
  lemma DefaultRootCreatedOnce(p: Process, created1: Ptr, created2: Ptr)
    requires p.Valid()
    ensures var first := InitDefaultRoot(p, created1);
            && Count(first.calls, SuRootCreate) <= 1
            && (first.after.1.Ok? ==>
                  InitDefaultRoot(first.after.0, created2) == Effect((first.after.0, Ok(())), []))
  {
  }

  /** `get_default_root`: the default root, created on first demand. */
  function GetDefaultRoot(p: Process, created: Ptr): (e: Effect<(Process, Result<Root, Error>)>)
    requires p.Valid()
    ensures e.after.0.Valid() && e.after.0.initialized
    ensures e.calls == InitDefaultRoot(p, created).calls
    ensures e.after.0 == InitDefaultRoot(p, created).after.0
    ensures e.after.1.Ok? <==> (p.rootInitialized || created != NullPtr)
    ensures e.after.1.Ok? ==> e.after.0.defaultRoot == Some(e.after.1.value)
                              && e.after.1.value.ptr != NullPtr
    ensures e.after.1.Err? ==> e.after.1.error == InitError
  {
    var i := InitDefaultRoot(p, created);
    match i.after.1
    case Err(err) => Effect((i.after.0, Err(err)), i.calls)
    case Ok(_) => Effect((i.after.0, Ok(i.after.0.defaultRoot.value)), i.calls)
  }

  /** `main_loop_run`: rush the default root, creating it if need be. The
      rush is the one the program has, `RushAsWritten`. */
  function MainLoopRun(p: Process, created: Ptr, script: seq<RushStep>)
    : (e: Effect<(Process, Result<RushEnd, Error>)>)
    requires p.Valid()
    ensures e.after.0.Valid()
    ensures e.after.1.Ok? <==> GetDefaultRoot(p, created).after.1.Ok?
    ensures e.after.1.Err? ==> e.after.1.error == InitError
                               && e.calls == GetDefaultRoot(p, created).calls
                               && e.after.0 == GetDefaultRoot(p, created).after.0
    ensures e.after.1.Ok? ==>
              var root := GetDefaultRoot(p, created).after.1.value;
              && e.after.0.defaultRoot.Some?
              && e.after.0.defaultRoot.value.ptr == root.ptr
              && e.calls == GetDefaultRoot(p, created).calls + RushAsWritten(root, script).calls
              && e.after.1.value == RushAsWritten(root, script).after.1
              && e.after.0.defaultRoot == Some(RushAsWritten(root, script).after.0)
              && e.after.0.errno
                 == (if root.rushing then GetDefaultRoot(p, created).after.0.errno
                     else RushLoop(root.ptr, script).errno)
    ensures e.after.1 == Ok(Stopped) ==> !e.after.0.defaultRoot.value.rushing
    ensures e.after.1 == Ok(StepFailed) ==>
              (e.after.0.defaultRoot.value.rushing
               <==> !RushLoop(e.after.0.defaultRoot.value.ptr, script).stopped)
  {
    var g := GetDefaultRoot(p, created);
    match g.after.1
    case Err(err) => Effect((g.after.0, Err(err)), g.calls)
    case Ok(root) =>
      var r := RushAsWritten(root, script);
      var errno := if root.rushing then g.after.0.errno else RushLoop(root.ptr, script).errno;
      Effect((g.after.0.(defaultRoot := Some(r.after.0), errno := errno), Ok(r.after.1)),
             g.calls + r.calls)
  }

  /** As written, one main loop left through a failing step leaves the default
      root flagged, and every later `main_loop_run` returns without stepping. */
  lemma MainLoopRunStaysLocked(r: Ptr, created: Ptr, later: seq<RushStep>)
    requires r != NullPtr
    ensures var p := Process(true, true, Some(Root(r, false)), ERROR_NONE);
            var first := MainLoopRun(p, created, [RushStep(-1, 5, false)]);
            && first.after.1 == Ok(StepFailed)
            && first.after.0.defaultRoot.value.rushing
            && MainLoopRun(first.after.0, created, later).calls == []
            && MainLoopRun(first.after.0, created, later).after.1 == Ok(AlreadyRushing)
  {
    var script := [RushStep(-1, 5, false)];
    assert StepFails(script[0]);
  }

  /** `main_loop_quit`: stop the default root; note that it creates the
      default root if none exists yet. */
  function MainLoopQuit(p: Process, created: Ptr): (e: Effect<Process>)
    requires p.Valid()
    ensures e.after.Valid()
    ensures e.calls == InitDefaultRoot(p, created).calls
    ensures e.after.initialized
    ensures e.after.defaultRoot.Some? <==> p.rootInitialized || created != NullPtr
    ensures e.after.defaultRoot.Some? ==> !e.after.defaultRoot.value.rushing
    ensures p.rootInitialized ==> e.after == p.(defaultRoot := Some(Stop(p.defaultRoot.value)))
    ensures !p.rootInitialized && created != NullPtr ==>
              e.after.defaultRoot == Some(Root(created, false))
  {
    var g := GetDefaultRoot(p, created);
    match g.after.1
    case Err(_) => Effect(g.after.0, g.calls)
    case Ok(root) => Effect(g.after.0.(defaultRoot := Some(Stop(root))), g.calls)
  }

  /** `main_loop_quit` undoes the lock a failed main loop leaves: the next
      `main_loop_run` rushes again, and steps if the engine answers. */
  lemma QuitReleasesLock(p: Process, created: Ptr, script: seq<RushStep>)
    requires p.Valid()
    requires p.rootInitialized || created != NullPtr
    ensures var m := MainLoopRun(MainLoopQuit(p, created).after, created, script);
            && m.after.1.Ok? && m.after.1.value != AlreadyRushing
            && (|script| > 0 ==> m.calls != [])
  {
    var q := MainLoopQuit(p, created).after;
    assert q.rootInitialized && q.initialized;
    assert GetDefaultRoot(q, created).calls == [];
  }
}

=== FILE: tag.dfy ===
/** Parameter tags and their native (symbol, value) items (src/tag/tag.rs).

    A native tag symbol is the address of a static `tag_type_s` object in the
    native library; here each address the wrapper uses is one constructor of
    `TagType`, so distinct symbols are distinct by construction and the null
    address is `NullSymbol`. */
module Tags {
  import opened Wrappers
  import opened Errors

  newtype byte = x: int | 0 <= x < 256

  /** A C string's content: bytes without the NUL terminator. */
  type CString = s: seq<byte> | 0 !in s witness []

  /** `std::ffi::NulError`: the position of the first NUL and the rejected bytes. */
  datatype NulError = NulError(position: nat, bytes: seq<byte>)

  /** Position of the first NUL byte, if any. */
  function FirstNul(s: seq<byte>): (r: Option<nat>)
    ensures r.None? <==> 0 !in s
    ensures r.Some? ==> r.value < |s| && s[r.value] == 0 && 0 !in s[..r.value]
  {
    if s == [] then None
    else if s[0] == 0 then Some(0)
    else
      match FirstNul(s[1..])
      case None => None
      case Some(k) =>
        assert s[..k + 1] == [s[0]] + s[1..][..k];
        Some(k + 1)
  }

  /** `CString::new`: succeeds with the bytes unchanged, or fails at the first NUL. */
  function CStringNew(s: seq<byte>): (r: Result<CString, NulError>)
    ensures r.Ok? <==> 0 !in s
    ensures r.Ok? ==> r.value == s
    ensures r.Err? ==> r.error.bytes == s && r.error.position < |s|
                       && s[r.error.position] == 0 && 0 !in s[..r.error.position]
  {
    match FirstNul(s)
    case None => Ok(s)
    case Some(k) => Err(NulError(k, s))
  }

  /** `impl From<NulError> for Error`: the conversion the `?` operator applies. */
  function FromNulError(e: NulError): (r: Error)
    ensures r == ConvertToCStringError
  {
    ConvertToCStringError
  }

  /** The native symbol addresses the wrapper hands to the engine. */
  datatype TagType =
    | NullSymbol
    | NutagUrl
    | SiptagSubjectStr
    | SiptagContentTypeStr
    | SiptagPayloadStr
    | SiptagToStr
    | TagNext

  /** A native `tag_value_t`: zero, a pointer to a C string, or (for `tag_next`)
      a pointer to a further item array. */
  datatype TagValue =
    | Zero
    | CStr(bytes: CString)
    | ItemArray(items: seq<TagItem>)

  /** A native `tagi_t`. */
  datatype TagItem = TagItem(tag: TagType, value: TagValue)

  /** The (null, 0) item that terminates every item array. */
  const SENTINEL: TagItem := TagItem(NullSymbol, Zero)

  datatype Tag =
    | Url(payload: CString)
    | SubjectStr(payload: CString)
    | ContentTypeStr(payload: CString)
    | PayloadStr(payload: CString)
    | ToStr(payload: CString)
    | Null
    | End
  {
    /** The five variants that carry a string. */
    predicate IsString() {
      !Null? && !End?
    }
  }

  /** `symbol()`: the native symbol of the tag's variant. */
  function Symbol(t: Tag): (s: TagType)
    ensures s == NullSymbol <==> !t.IsString()
    ensures s != TagNext
  {
    match t
    case Url(_) => NutagUrl
    case SubjectStr(_) => SiptagSubjectStr
    case ContentTypeStr(_) => SiptagContentTypeStr
    case PayloadStr(_) => SiptagPayloadStr
    case ToStr(_) => SiptagToStr
    case Null => NullSymbol
    case End => NullSymbol
  }

  /** `value()`: a pointer to the tag's own payload, or 0 for the sentinels. */
  function Value(t: Tag): (v: TagValue)
    ensures v == Zero <==> !t.IsString()
    ensures t.IsString() ==> v == CStr(t.payload)
  {
    if t.IsString() then CStr(t.payload) else Zero
  }

  /** `item()`: symbol and value of the same tag, paired. */
  function Item(t: Tag): (i: TagItem)
    ensures i.tag == Symbol(t) && i.value == Value(t)
    ensures i == SENTINEL <==> !t.IsString()
  {
    TagItem(Symbol(t), Value(t))
  }

  /** Two tags of the same variant, ignoring the payload. */
  predicate SameVariant(a: Tag, b: Tag) {
    || (a.Url? && b.Url?)
    || (a.SubjectStr? && b.SubjectStr?)
    || (a.ContentTypeStr? && b.ContentTypeStr?)
    || (a.PayloadStr? && b.PayloadStr?)
    || (a.ToStr? && b.ToStr?)
    || (a.Null? && b.Null?)
    || (a.End? && b.End?)
  }

  /** The five string variants use five distinct non-null symbols. */
  lemma SymbolsDistinct(a: Tag, b: Tag)
    requires a.IsString() && b.IsString()
    ensures Symbol(a) != NullSymbol
    ensures Symbol(a) == Symbol(b) <==> SameVariant(a, b)
  {
  }

  /** How the engine reads a string item back into a tag; `None` for anything
      that is not a string symbol carrying a C string. */
  function FromItem(i: TagItem): (r: Option<Tag>)
    ensures r.Some? ==> r.value.IsString() && Item(r.value) == i
  {
    match i.value
    case CStr(b) =>
      (match i.tag
       case NutagUrl => Some(Url(b))
       case SiptagSubjectStr => Some(SubjectStr(b))
       case SiptagContentTypeStr => Some(ContentTypeStr(b))
       case SiptagPayloadStr => Some(PayloadStr(b))
       case SiptagToStr => Some(ToStr(b))
       case _ => None)
    case _ => None
  }

  /** A string tag survives the trip to its native item and back. */
  lemma ItemRoundTrip(t: Tag)
    requires t.IsString()
    ensures FromItem(Item(t)) == Some(t)
  {
  }

  /** The conversion behind every constructor: `CString::new(s)?`. */
  function ToCString(s: seq<byte>): (r: Result<CString, Error>)
    ensures r.Ok? <==> 0 !in s
    ensures r.Ok? ==> r.value == s
    ensures r.Err? ==> r.error == ConvertToCStringError
  {
    match CStringNew(s)
    case Ok(c) => Ok(c)
    case Err(e) => Err(FromNulError(e))
  }

  /** `Tag::NuUrl`. */
  function NuUrl(url: seq<byte>): (r: Result<Tag, Error>)
    ensures r.Ok? <==> 0 !in url
    ensures r.Ok? ==> r.value.Url? && r.value.payload == url
    ensures r.Err? ==> r.error == ConvertToCStringError
  {
    match ToCString(url)
    case Ok(c) => Ok(Url(c))
    case Err(e) => Err(e)
  }

  /** `Tag::SipSubject`. */
  function SipSubject(s: seq<byte>): (r: Result<Tag, Error>)
    ensures r.Ok? <==> 0 !in s
    ensures r.Ok? ==> r.value.SubjectStr? && r.value.payload == s
    ensures r.Err? ==> r.error == ConvertToCStringError
  {
    match ToCString(s)
    case Ok(c) => Ok(SubjectStr(c))
    case Err(e) => Err(e)
  }

  /** `Tag::SipContentType`. */
  function SipContentType(s: seq<byte>): (r: Result<Tag, Error>)
    ensures r.Ok? <==> 0 !in s
    ensures r.Ok? ==> r.value.ContentTypeStr? && r.value.payload == s
    ensures r.Err? ==> r.error == ConvertToCStringError
  {
    match ToCString(s)
    case Ok(c) => Ok(ContentTypeStr(c))
    case Err(e) => Err(e)
  }

  /** `Tag::SipPayloadString`. */
  function SipPayloadString(s: seq<byte>): (r: Result<Tag, Error>)
    ensures r.Ok? <==> 0 !in s
    ensures r.Ok? ==> r.value.PayloadStr? && r.value.payload == s
    ensures r.Err? ==> r.error == ConvertToCStringError
  {
    match ToCString(s)
    case Ok(c) => Ok(PayloadStr(c))
    case Err(e) => Err(e)
  }

  /** `Tag::SipTo`. */
  function SipTo(s: seq<byte>): (r: Result<Tag, Error>)
    ensures r.Ok? <==> 0 !in s
    ensures r.Ok? ==> r.value.ToStr? && r.value.payload == s
    ensures r.Err? ==> r.error == ConvertToCStringError
  {
    match ToCString(s)
    case Ok(c) => Ok(ToStr(c))
    case Err(e) => Err(e)
  }

  /** A string with an embedded NUL is rejected by every constructor rather
      than cut short at the NUL. */
  lemma EmbeddedNulIsRejected(s: seq<byte>, k: nat)
    requires k < |s| && s[k] == 0
    ensures NuUrl(s) == Err(ConvertToCStringError)
    ensures SipSubject(s) == Err(ConvertToCStringError)
    ensures SipContentType(s) == Err(ConvertToCStringError)
    ensures SipPayloadString(s) == Err(ConvertToCStringError)
    ensures SipTo(s) == Err(ConvertToCStringError)
  {
  }
}

=== FILE: wrappers.dfy ===
/** Option and Result, the two failure-carrying values the wrapper uses
    (`Option<T>` and `crate::result::Result<T>` in the Rust crate). */
module Wrappers {

  datatype Option<+T> = None | Some(value: T)

  /** `Result<T, E>`: the crate fixes `E` to its own `Error`, `CString::new`
      uses `NulError`. */
  datatype Result<+T, +E> = Ok(value: T) | Err(error: E)
}
